=== FILE: README.md ===
# Law toolchain front end — a Dafny model of its state logic

The repository is a React front end for a set of legal-text tools, plus a
one-route Express server. Almost all of it is static pages. This project
models the parts that hold logic, as immutable data and pure transition
functions. Every effect the code performs is a parameter instead:

- the process launcher's answer;
- the status probe's answer;
- the script's log lines;
- the formatted time of day.

The parts modelled:

- **AutoContractTag service console** (`LawToolchain.jsx`): three supervised services (web server, task worker, extraction script).
  - Start and stop handlers, the whole-system start-all and stop-all, and a refresh from a process probe.
  - Capture of the extraction script's output.
  - A newest-first log view capped at 200 entries. An overflowing insert cuts it back to the newest 100.
  - Modules `LogBuffer`, `Text`, `ServiceConsole`, `Orchestrator`, `ConsoleTrace`, `StatusBadge`.
- **DocTransPro panel** (`LawToolchain.jsx`): launching, stopping and probing one GUI program, with a four-step progress display and a status badge. Module `DocTransPro`.
- **ProvBench panel** (`LawToolchain.jsx`): three models that can each be run, a loading flag per model that disables every button, and a results list that grows newest first. Module `ProvBench`.
- **`/api/calc` endpoint** (`server.js`): a validator with a fixed order of checks (operand types, then operator, then an upper bound of 10), followed by the sum or the difference. Module `Calculator`.
- **Carousels**:
  - `Jiamodel.jsx`: one carousel over the slide list. Module `Carousel`.
  - `Yemodel.jsx`: two independent two-slide carousels whose handlers hard-code the count. Module `TwinCarousel`.

### Modelling choices

- **Atomic handlers.** Each async handler is one atomic transition. A start handler is split where it suspends: `BeginStart` sets `starting` and logs, and `FinishStart` applies the launcher's answer. This makes the "starting" state visible. `ConsoleTrace` runs any interleaving of these pieces and proves invariants over all of them. Handler pieces interleave only at their awaits.
- **Unused status helpers.** `getServiceStatusType` and `getServiceStatusText` (`LawToolchain.jsx:890` and `:899`) are defined but never called. Each service card writes its text inline (`:1433`) and picks its colour inline (`:1432`). `ServiceConsole.StatusTextOf` equals that inline text, because it tests the same fields in the same order. `ServiceConsole.StatusTypeOf` models only the unused helper, which the page never shows. The colour the card actually renders is `StatusBadge.RenderedColour`.
- **Truthiness.** The badge tests `if (s.error)`, so an empty error string counts as no error (`HasError`).
- **Stale pid in the success line.** The success line of a start prints `services.<name>.pid` from the render whose handler was invoked, not the pid the launch just produced. `FinishStart` therefore takes that seen pid as a parameter and prints it, with `null` when there was none. `Start` passes the record's pid at the moment of the click. Start-all passes the pids of the start-all click to all three starts, because it calls the handlers of its own render (`ConsoleTrace.StartAllIsRun`). In a trace, a finishing start may carry any seen pid.
- **Refresh is never called.** `refreshAllStatus` (`LawToolchain.jsx:1264`) is defined, but no button, effect or timer on the page calls it. It is modelled anyway (`ServiceConsole.Refresh`), and `ConsoleTrace`'s `RefreshOf` step lets traces use it. So the traces admit more than the page can do, and the invariants proved over them hold a fortiori.
- **Mock data.** The code's hard-coded values are particular values of the parameters:
  - the random pid;
  - the fixed probe answer;
  - the fixed five script lines.

  The model admits every value.
- **Checks read the clicked render.** `checkGUIStatus` tests the `isRunning` of the render whose button was clicked, after its await. `DocTransPro.CheckStatus` takes that flag as `seenRunning`. The button exists only while the program runs (`LawToolchain.jsx:1928`), so on the page the flag is true. A trace may carry either value.

What the code does not do:

- No lifecycle transition is rejected, and there is no per-service in-flight guard. Only the start button stops a second start: it is disabled while starting (`disabled={…starting}`, `LawToolchain.jsx:1446`) and hidden while running (`LawToolchain.jsx:1443`). `ServiceConsole.NoInFlightGuard` states this.
- There are no timeouts: every awaited delay simply completes.
- Refresh ignores probe entries whose names are not services (`ServiceConsole.RefreshIgnoresUnknownNames`).
- The log keeps the newest 100 entries when an insert makes it 201 long (`LogBuffer.OverflowLeavesHalf`).

## Model

| member | source | states |
|---|---|---|
| `LogBuffer.AddLog` | src/pages/LawToolchain.jsx:867-882 | the new entry is at index 0 and the previous entries follow in their old order; length grows by one, except that reaching 201 cuts the list to the newest 100, so a list within the cap stays within it |
| `LogBuffer.ClearLogs` | src/pages/LawToolchain.jsx:885-887 | the log view is emptied |
| `LogBuffer.AddLogsWithoutOverflow` | src/pages/LawToolchain.jsx:871-881 | while the cap is not reached, a batch of entries lands newest first on top of the old list |
| `LogBuffer.ReplayIsNewestSuffix` | src/pages/LawToolchain.jsx:867-882 | after any history of inserts from empty, the view is exactly the newest entries in reverse order: never over 200, never under 100 once 100 were logged |
| `LogBuffer.ReplayLength` | src/pages/LawToolchain.jsx:876-881 | the exact length after n inserts: n up to 200, then 100 + (n − 201) mod 101 |
| `LogBuffer.TopIsBatch` | src/pages/LawToolchain.jsx:867-882 | on any log, a batch of at most 100 inserts ends up on top newest first, because an overflow partway through cuts only older entries |
| `LogBuffer.OverflowLeavesHalf` | src/pages/LawToolchain.jsx:877-879 | the 201st insert leaves exactly the newest 100 entries |
| `Text.Last` | src/pages/LawToolchain.jsx:1012 | `slice(-3)` keeps the last three elements (all of them when fewer) in order |
| `ServiceConsole.Snippet` | src/pages/LawToolchain.jsx:1012 | the script-output snippet, the last three lines joined by the space-bar-space separator, is empty for no lines and otherwise always ends with the newest line, whatever the lines contain |
| `Text.SplitJoin` | src/pages/LawToolchain.jsx:1012 | joining lines with the space-bar-space separator loses nothing: splitting the result at the separators gives the lines back when no line contains a bar character |
| `Text.PidTextReadsBack` | src/pages/LawToolchain.jsx:1088 | the pid printed into the success line is "null" exactly when there is none, and otherwise reads back as the pid |
| `ServiceConsole.StatusTypeOf` | src/pages/LawToolchain.jsx:890-897 | the status type is warning exactly when starting, success when running and not starting, danger when neither and the error is truthy, info otherwise |
| `ServiceConsole.StatusTextOf` | src/pages/LawToolchain.jsx:899-905 | equal to the card's inline text at line 1433: the text is 启动中 exactly when starting, 运行中 when running and not starting, 错误 when neither and the error is truthy, 未运行 otherwise |
| `ServiceConsole.StatusTextAgreesWithType` | src/pages/LawToolchain.jsx:890-905 | the status text is the label of the status type, and the text alone determines the type |
| `ServiceConsole.StartingDominates` | src/pages/LawToolchain.jsx:890-905 | a starting record reports warning / 启动中 whatever its other fields |
| `ServiceConsole.BeginStart` | src/pages/LawToolchain.jsx:1066-1075 | only the started service's `starting` is set, the other records are untouched, and the "正在启动…" info line is logged |
| `ServiceConsole.Launch` | src/pages/LawToolchain.jsx:1076-1098 | success: running, new pid, error cleared, not starting; failure: error set to the message, not starting, running and pid as they were |
| `ServiceConsole.FinishStart` | src/pages/LawToolchain.jsx:1076-1099 | the launcher's answer changes only this service's record and logs a success line with the pid its handler saw when invoked, or an error line with the failure message |
| `ServiceConsole.Start` | src/pages/LawToolchain.jsx:1066-1100 | a whole start ends not starting, running with the new pid and no error on success, or with the error set and running and pid unchanged on failure; other services and the script output are untouched; exactly two lines are logged |
| `ServiceConsole.BeginStartDisablesButton` | src/pages/LawToolchain.jsx:1443-1449 | once a start has begun, the start button is disabled (`disabled={…starting}`, line 1446) and the status text reads 启动中; the unused status-type helper would give warning |
| `ServiceConsole.StartButtons` | src/pages/LawToolchain.jsx:1443-1457 | after a successful start, the stop button replaces the start button; after a failed one, the stop button shows exactly as before, and the start button is enabled again unless the service was running |
| `ServiceConsole.NoInFlightGuard` | src/pages/LawToolchain.jsx:1066-1075 | a start on a service that is already starting or running still goes through, even on a full log: the record is marked starting, the "正在启动…" line is on top, and the log grows by one or is cut to 100 |
| `ServiceConsole.Halt` | src/pages/LawToolchain.jsx:1179-1226 | a stop clears `running` and `pid`, keeps `starting` and `error`, and clears `scriptOutput` only for the extraction script |
| `ServiceConsole.Stop` | src/pages/LawToolchain.jsx:1179-1193 | a stop changes only its own service's record and logs one info line |
| `ServiceConsole.Reconcile` | src/pages/LawToolchain.jsx:1275-1284 | a probe entry under the service's name overwrites `running` and `pid` only; without one the record is unchanged |
| `ServiceConsole.Refresh` | src/pages/LawToolchain.jsx:1264-1292 | (the page never calls it) a probe answer reconciles every record and prepends the system info line 状态已刷新 to the old log; a failed probe changes no record and prepends the system error line "刷新状态失败: " followed by the message |
| `ServiceConsole.RefreshIgnoresUnknownNames` | src/pages/LawToolchain.jsx:1276-1281 | probe entries under names that are not services have no effect at all |
| `ServiceConsole.CaptureOutput` | src/pages/LawToolchain.jsx:998-1024 | non-empty lines set only the extraction script's `scriptOutput` to the snippet and log the last line; no lines log a warning and change no record; a failed fetch changes no record and prepends the extraction script's error line "获取提取脚本日志失败: " followed by the message to the old log; no other service changes in any case |
| `ServiceConsole.SnippetKeepsNewestLines` | src/pages/LawToolchain.jsx:1007-1017 | when no line contains a bar character, the snippet reads back as the last up-to-three lines; lines with a bar cannot be split back |
| `Orchestrator.StartAll` | src/pages/LawToolchain.jsx:1228-1248 | every service ends as its own launch leaves it, and the closing success line is always the newest entry |
| `Orchestrator.StartAllIsolatesFailures` | src/pages/LawToolchain.jsx:1228-1248 | each service's record after start-all depends only on its own launch outcome |
| `Orchestrator.StartAllLogOrder` | src/pages/LawToolchain.jsx:1228-1248 | the start-all log is the opening line, then web server, task worker and extraction script starts in that order, then the closing line |
| `Orchestrator.StartAllWithoutOverflow` | src/pages/LawToolchain.jsx:1228-1248 | with room in the view, those eight lines are prepended newest first |
| `Orchestrator.StartAllLogsNewestFirst` | src/pages/LawToolchain.jsx:1231-1242 | whatever the log held before, even when the cap is hit partway through, in the view the closing line is on top, then the extraction script's two lines, then the task worker's, then the web server's, then the opening line |
| `Orchestrator.StopAll` | src/pages/LawToolchain.jsx:1250-1262 | after stop-all no service runs or holds a pid, each record is as its own stop leaves it, and the closing line is the newest entry |
| `Orchestrator.StartAllThenStopAll` | src/pages/LawToolchain.jsx:1228-1262 | start-all followed by stop-all leaves nothing running or starting, and a service shows danger exactly when its own launch failed with a non-empty message |
| `ConsoleTrace.StartAllIsRun` | src/pages/LawToolchain.jsx:1228-1248 | start-all is exactly the sequence: opening line, three begin/finish pairs in service order, each finishing with the pid of the start-all click, closing line |
| `ConsoleTrace.StopAllIsRun` | src/pages/LawToolchain.jsx:1250-1262 | stop-all is exactly the three stops in order and the closing line |
| `ConsoleTrace.ReachableWellFormed` | src/pages/LawToolchain.jsx:821-882 | every console reachable from the initial one keeps the log within 200 entries and script output only on the extraction script, including through start-all and stop-all |
| `ConsoleTrace.UntouchedRecordUnchanged` | src/pages/LawToolchain.jsx:1066-1226 | any sequence of handlers aimed at other services, and of log lines and clears, leaves a service's record unchanged |
| `StatusBadge.RenderedColour` | src/pages/LawToolchain.jsx:1432 | the card's badge is green exactly when running and red exactly when not running with a truthy error; it is never yellow |
| `StatusBadge.BadgeColour` | src/pages/LawToolchain.jsx:1432-1433 | the corrected badge colour matches the badge text case by case: yellow for 启动中, green for 运行中, red for 错误, gray for 未运行 |
| `StatusBadge.RenderedColourWrongOnlyWhileStarting` | src/pages/LawToolchain.jsx:1432-1433 | the rendered colour and the text-matching colour differ exactly while the service is starting |
| `StatusBadge.RetryAfterFailureShowsRedStartingBadge` | src/pages/LawToolchain.jsx:1432-1433 | retrying a failed start shows 启动中 on a red badge |
| `DocTransPro.BeginLaunch` | src/pages/LawToolchain.jsx:1765-1768 | launching is set, the error is cleared and step 1 shows; the program fields are untouched |
| `DocTransPro.Launch` | src/pages/LawToolchain.jsx:1765-1793 | the whole launch ends not launching; success: running with the new id and start time at step 2 and no error; failure: the prefixed message, not running, no id, step 0, start time kept |
| `DocTransPro.FinishLaunch` | src/pages/LawToolchain.jsx:1770-1793 | success: running with the new id and start time at step 2; failure: the prefixed error, not running, no id, step 0; launching cleared either way |
| `DocTransPro.LaunchTimerFires` | src/pages/LawToolchain.jsx:1781-1784 | the post-launch timer moves to step 3 and nothing else |
| `DocTransPro.Stop` | src/pages/LawToolchain.jsx:1796-1807 | an answered stop leaves no program, no id and step 4, keeping the error, the launching flag and the last start time; a thrown one only sets the prefixed error |
| `DocTransPro.CheckStatus` | src/pages/LawToolchain.jsx:1810-1823 | an answered check shows step 3 when the clicked render showed the program running and step 4 otherwise, and changes nothing else; a thrown one only sets the prefixed error |
| `DocTransPro.CheckClickedBeforeStopShowsStepThree` | src/pages/LawToolchain.jsx:1796-1819 | a check clicked while running that returns after a stop leaves the panel not running, with no id, at step 3 |
| `DocTransPro.ClearError` | src/pages/LawToolchain.jsx:1842-1844 | only the error is cleared |
| `DocTransPro.StatusTypeOf` | src/pages/LawToolchain.jsx:1826-1831 | the type is warning exactly when launching, danger when not launching with a non-empty error, success when neither and running, info otherwise |
| `DocTransPro.StatusTextOf` | src/pages/LawToolchain.jsx:1834-1839 | the text is 正在启动, 启动失败, 程序运行中 or 待启动 under exactly the same conditions as the four types |
| `DocTransPro.StatusTextAgreesWithType` | src/pages/LawToolchain.jsx:1826-1839 | the text is the label of the type, and the text alone determines the type |
| `DocTransPro.ErrorOutranksRunning` | src/pages/LawToolchain.jsx:1826-1839 | unlike the service console, a running program with an error reads danger / 启动失败 |
| `DocTransPro.LaunchStatus` | src/pages/LawToolchain.jsx:1765-1793 | after a launch the badge reads success and the stop button shows exactly when it succeeded; it reads danger with the error panel and an enabled launch button exactly when it failed |
| `DocTransPro.ClearErrorAfterFailure` | src/pages/LawToolchain.jsx:1842-1844 | clearing the error after a failed launch returns the panel to 待启动 with the launch button enabled |
| `DocTransPro.ReachableConsistent` | src/pages/LawToolchain.jsx:1756-1823 | under any sequence of handlers, checks included whatever `isRunning` their clicked render showed, the step stays in 0..4, an id is held exactly while running, and a running program has a start time |
| `ProvBench.IsAnyLoading` | src/pages/LawToolchain.jsx:553 | true exactly when some model's flag is set |
| `ProvBench.ResultOf` | src/pages/LawToolchain.jsx:606-631 | the result names the model and time, succeeds exactly when the request did, and carries an empty error and 4200 ms on success, or empty output and 2500 ms on failure |
| `ProvBench.BeginRun` | src/pages/LawToolchain.jsx:597-605 | the model's flag is set, so some model is loading, the other models' flags are kept, and the execution is recorded; the results are untouched |
| `ProvBench.FinishRun` | src/pages/LawToolchain.jsx:621-641 | the result goes in front of the old list, only this model's flag is cleared, and the execution is reset |
| `ProvBench.ClearResults` | src/pages/LawToolchain.jsx:644-646 | the list is emptied and the loading flags are kept |
| `ProvBench.BeginRunLocksButtons` | src/pages/LawToolchain.jsx:690-691 | while a run is in progress every run button (`disabled={isAnyLoading}`, lines 690-691) and the clear button (the same attribute, lines 746-747) are disabled |
| `ProvBench.RunReleasesButtons` | src/pages/LawToolchain.jsx:634-641 | a run begun with the buttons enabled leaves them enabled when it ends |
| `ProvBench.ResultsNewestFirst` | src/pages/LawToolchain.jsx:621-633 | after any sequence of runs the list is their results newest first, on top of the old list |
| `ProvBench.PerformAllReleasesButtons` | src/pages/LawToolchain.jsx:597-641 | runs made one after another from an unlocked, idle panel leave it unlocked with no execution pending |
| `ProvBench.FromOpenedPanel` | src/pages/LawToolchain.jsx:540-553 | from the opening state, any runs leave the buttons enabled and the list exactly those runs' results, newest first |
| `ProvBench.ResultsUnbounded` | src/pages/LawToolchain.jsx:621-633 | nothing is ever dropped: each run adds exactly one result |
| `ProvBench.ClearThenRuns` | src/pages/LawToolchain.jsx:644-646 | after a clear the list shows exactly the runs made since, newest first |
| `Calculator.Handle` | server.js:10-31 | a result is returned only for two numbers that are both at most 10 and an operator "+" or "-", and it is their sum or difference; every other request gets one of the three error messages |
| `Calculator.HandleFollowsCheckOrder` | server.js:13-31 | the response is the message of the first failing check in the order type, operator, range, and a result exactly when none fails |
| `Calculator.MultiplyDivideRejected` | server.js:17-24 | the "*" and "/" the calculator page offers are always refused with the operator error, however large the operands |
| `Calculator.AcceptedExactlyWithinUpperBound` | server.js:26-30 | for numbers and "+" or "-", a result comes back exactly when neither operand exceeds 10, negative operands included |
| `Calculator.ResultBounds` | server.js:18-30 | an accepted sum is at most 20, but an accepted difference has no upper limit |
| `Carousel.Next` | src/pages/Jiamodel.jsx:48-50 | on a valid index the next index is valid and equals (i + 1) mod n, wrapping the last slide to 0 |
| `Carousel.Prev` | src/pages/Jiamodel.jsx:52-54 | on a valid index the previous index is valid and equals (i − 1) mod n, wrapping 0 to the last slide |
| `Carousel.PrevNextInverse` | src/pages/Jiamodel.jsx:48-54 | previous undoes next and next undoes previous on every valid index |
| `Carousel.FullCycle` | src/pages/Jiamodel.jsx:48-50 | pressing next once per slide returns to the starting slide |
| `Carousel.Dots` | src/pages/Jiamodel.jsx:153-156 | there is one dot per slide and each selects a valid index |
| `Carousel.StepsStayInRange` | src/pages/Jiamodel.jsx:48-54 | any sequence of arrow and dot presses keeps the index a valid slide position |
| `Carousel.VisibleCount` | src/pages/Jiamodel.jsx:122-125 | a valid index makes exactly one slide opaque; any other index makes none |
| `Carousel.ExactlyOneVisible` | src/pages/Jiamodel.jsx:122-156 | from the first slide, every sequence of presses leaves exactly one slide visible |
| `TwinCarousel.NextOfTwo` | src/pages/Yemodel.jsx:36-38 | on {0, 1} next stays in {0, 1} and flips the index |
| `TwinCarousel.PrevOfTwo` | src/pages/Yemodel.jsx:40-42 | on {0, 1} previous stays in {0, 1} and flips the index |
| `TwinCarousel.AgreesWithGeneral` | src/pages/Yemodel.jsx:36-50 | the hard-coded handlers equal the general wrap-around over two slides for every index |
| `TwinCarousel.ToggleOnTwo` | src/pages/Yemodel.jsx:36-50 | on {0, 1} next and previous are the same toggle, and two presses are the identity |
| `TwinCarousel.DotsSelectZeroOrOne` | src/pages/Yemodel.jsx:157-160 | a dot press only ever selects index 0 or 1 |
| `TwinCarousel.Apply` | src/pages/Yemodel.jsx:33-50 | a press on one carousel's controls moves that carousel's index and never the other's |
| `TwinCarousel.CarouselsIndependent` | src/pages/Yemodel.jsx:33-50 | after any interleaving of presses, each index is what its own presses alone would make it |
| `TwinCarousel.StaysOnTwoSlides` | src/pages/Yemodel.jsx:121-135 | each index stays 0 or 1 under any presses, so each carousel always shows exactly one slide |
| `TwinCarousel.PageShowsOneSlideEach` | src/pages/Yemodel.jsx:33-34 | from the page's opening state, after any interleaving of presses, each carousel shows exactly one of its two slides |

## Findings

| source | as written | input that shows it | evidently intended | confidence | as-written member | corrected member |
|---|---|---|---|---|---|---|
| src/pages/LawToolchain.jsx:1432 | the service card's badge colour tests `running`, then `error`, and never `starting`, while the text beside it puts `starting` first | the web server's start fails with "端口已被占用" and is started again: the text reads 启动中 on a red badge (and on a gray one for a first start) | the colour follows the same status type as the text, with yellow for 'warning' as the same page's DocTransPro badge does | low, not executed | `StatusBadge.RetryAfterFailureShowsRedStartingBadge` | `StatusBadge.BadgeColour` |

## Left out

- Timing is not modelled, beyond handler pieces interleaving at their awaits:
  - the `setTimeout` delays inside handlers;
  - the 3-second `getExtractLogs` call that a successful extraction-script start schedules (`CaptureOutput` models that call as a separate later event);
  - the overlap of concurrent React state updates.
- The busy flags are not modelled. `startingAll`, `stoppingAll` and `gettingExtractLogs` only disable their buttons during an await. `refreshing` is set by a handler the page never calls and disables nothing.
- The catch branches of the stop handlers ("停止失败") and of start-all ("启动服务失败") are not modelled. Their try blocks cannot throw.
- The console's launch, probe and log-line results are parameters, not the code's hard-coded mock values. Every value is admitted.
- Orchestrator.StartAll: every line of one start-all carries the same `now`. The code reads the clock separately for each line.
- ServiceConsole.Start: both lines of one start carry the same `now`, although the code writes them about two seconds apart (`LawToolchain.jsx:1075` and `:1088`). Traces built from `BeginStart` and `FinishStart` can stamp them differently.
- ServiceConsole.Refresh: the code writes the new fields into the previous state's record objects through a shallow copy. The model builds fresh records. Nothing in the model can observe the difference.
- The rest of the console is not modelled, because it is mock data or I/O:
  - diagnostics, port and process checks, troubleshooting, `testPort` and `getScriptLogs`;
  - the UI openers (`window.open`);
  - the `pid || '未运行'` display.
- ProvBench:
  - `simulateProgress` is not modelled (floating point and `Math.random`);
  - model icons are not modelled;
  - the `toUpperCase()` fallback of the display name is unreachable, because model ids are fixed;
  - only the first line of the success report is modelled; the fixed figures that follow it are constant text;
  - the request in `runModel` is a simulated delay that never throws, and the model makes its failure (`RunOutcome.Crashed`) a parameter.
- DocTransPro:
  - the system-information dialog is not modelled;
  - the launch, stop and check requests are simulated delays that never throw in the code, and the model makes their failure a parameter.
- Calculator:
  - operands are whole numbers, so floating point, NaN and Infinity are not modelled;
  - the Express wiring, CORS and the listening port are not modelled;
  - the client's `fetch` wrapper in `src/App.jsx` is not modelled;
  - HTTP status codes appear only as the result/error distinction.
- Carousels: the image URLs, alt texts and CSS transitions are not modelled.

=== FILE: calculator.dfy ===
/**
 * The `/api/calc` endpoint: a JSON body with operands `a`, `b` and an
 * operator `op`, answered with either a result or a 400 error. Operands are
 * whole numbers here; the JSON values the check `typeof x !== "number"`
 * rejects are collapsed into strings and "anything else".
 */
module Calculator {
  import opened Options

  /** A JSON value as the handler tells them apart. */
  datatype Json = JNumber(value: int) | JString(text: string) | JOther

  datatype Request = Request(a: Json, b: Json, op: Json)

  /** Exactly one of `{ result }` (status 200) or `{ error }` (status 400). */
  datatype Response = Ok(result: int) | BadRequest(error: string)

  const TypeError: string := "a 和 b 必须是数字"
  const OperatorError: string := "只支持 + 或 -"
  const RangeError: string := "数字必须 ≤ 10"

  /** The only bound the endpoint checks: an upper one. */
  const Bound: int := 10

  const Plus: Json := JString("+")
  const Minus: Json := JString("-")

  /**
   * The handler: operand types first; then the operator, which also
   * computes the result; only then the range of the operands.
   */
  function Handle(req: Request): (r: Response)
    ensures r.Ok? ==> req.a.JNumber? && req.b.JNumber?
    ensures r.Ok? ==> req.a.value <= Bound && req.b.value <= Bound
    ensures r.Ok? ==>
      || (req.op == Plus && r.result == req.a.value + req.b.value)
      || (req.op == Minus && r.result == req.a.value - req.b.value)
    ensures r.BadRequest? ==> r.error in {TypeError, OperatorError, RangeError}
  {
    if !req.a.JNumber? || !req.b.JNumber? then BadRequest(TypeError)
    else
      var a, b := req.a.value, req.b.value;
      var result: Option<int> :=
        if req.op == Plus then Some(a + b)
        else if req.op == Minus then Some(a - b)
        else None;
      if result.None? then BadRequest(OperatorError)
      else if a > Bound || b > Bound then BadRequest(RangeError)
      else Ok(result.value)
  }

  /** The three validations, each stated on its own. */
  datatype Check = TypeCheck | OperatorCheck | RangeCheck

  /** The order the handler applies them in. */
  const CheckOrder: seq<Check> := [TypeCheck, OperatorCheck, RangeCheck]

  predicate Passes(c: Check, req: Request)
  {
    match c
    case TypeCheck => req.a.JNumber? && req.b.JNumber?
    case OperatorCheck => req.op == Plus || req.op == Minus
    case RangeCheck => (req.a.JNumber? ==> req.a.value <= Bound) && (req.b.JNumber? ==> req.b.value <= Bound)
  }

  function Message(c: Check): string
  {
    match c
    case TypeCheck => TypeError
    case OperatorCheck => OperatorError
    case RangeCheck => RangeError
  }

  /** The first check in `checks` the request fails, if any. */
  function FirstFailure(checks: seq<Check>, req: Request): (f: Option<Check>)
    ensures f.None? <==> forall i :: 0 <= i < |checks| ==> Passes(checks[i], req)
    ensures f.Some? ==> exists i :: 0 <= i < |checks| && checks[i] == f.value && !Passes(f.value, req)
                          && forall j :: 0 <= j < i ==> Passes(checks[j], req)
  {
    if |checks| == 0 then None
    else if !Passes(checks[0], req) then Some(checks[0])
    else
      FirstFailure(checks[1..], req)
  }

  /**
   * The handler answers with the message of the first failing check in the
   * order type, operator, range, and with a result exactly when all pass.
   */
  lemma HandleFollowsCheckOrder(req: Request)
    ensures Handle(req).Ok? <==> FirstFailure(CheckOrder, req).None?
    ensures FirstFailure(CheckOrder, req).Some? ==>
      Handle(req) == BadRequest(Message(FirstFailure(CheckOrder, req).value))
  {
    var f := FirstFailure(CheckOrder, req);
    assert CheckOrder[0] == TypeCheck && CheckOrder[1] == OperatorCheck && CheckOrder[2] == RangeCheck;
    if f.Some? {
      var i :| 0 <= i < 3 && CheckOrder[i] == f.value && !Passes(f.value, req)
               && forall j :: 0 <= j < i ==> Passes(CheckOrder[j], req);
      if i > 0 { assert Passes(CheckOrder[0], req); }
      if i > 1 { assert Passes(CheckOrder[1], req); }
    } else {
      assert Passes(CheckOrder[0], req) && Passes(CheckOrder[1], req) && Passes(CheckOrder[2], req);
    }
  }

  /** The operators the calculator page offers, in its drop-down order. */
  const OfferedOperators: seq<string> := ["+", "-", "*", "/"]

  /**
   * The page offers "*" and "/", but the endpoint refuses both with the
   * operator error, however large the operands.
   */
  lemma MultiplyDivideRejected(a: int, b: int, k: nat)
    requires 2 <= k < |OfferedOperators|
    ensures Handle(Request(JNumber(a), JNumber(b), JString(OfferedOperators[k]))) == BadRequest(OperatorError)
  {
  }

  /**
   * For numbers and a supported operator, the answer is a result exactly
   * when neither operand exceeds 10: negative operands, however small, pass.
   */
  lemma AcceptedExactlyWithinUpperBound(a: int, b: int, op: Json)
    requires op == Plus || op == Minus
    ensures Handle(Request(JNumber(a), JNumber(b), op)).Ok? <==> a <= Bound && b <= Bound
    ensures a <= Bound && b <= Bound ==>
      Handle(Request(JNumber(a), JNumber(b), op)).result == if op == Plus then a + b else a - b
  {
  }

  /** A sum never exceeds 20, but a difference has no upper limit at all. */
  lemma ResultBounds(n: int)
    ensures forall a, b :: Handle(Request(JNumber(a), JNumber(b), Plus)).Ok? ==>
      Handle(Request(JNumber(a), JNumber(b), Plus)).result <= 2 * Bound
    ensures exists b :: (Handle(Request(JNumber(Bound), JNumber(b), Minus)).Ok? &&
                         Handle(Request(JNumber(Bound), JNumber(b), Minus)).result > n)
  {
    var b := if n >= 0 then -n else 0;
    assert Handle(Request(JNumber(Bound), JNumber(b), Minus)) == Ok(Bound - b);
  }
}

=== FILE: carousel.dfy ===
/**
 * The e3value page's image carousel: an index into `slides`, moved by the
 * previous/next arrows with wrap-around and set directly by one dot button
 * per slide. Only the slide whose position equals the index is opaque.
 */
module Carousel {
  /** The page's slide list has two entries. */
  const SlideCount: nat := 2

  /** `nextSlide`: the last slide wraps to the first. */
  function Next(n: nat, i: int): (r: int)
    ensures 0 <= i < n ==> 0 <= r < n && r == (i + 1) % n
  {
    if i == n - 1 then 0 else i + 1
  }

  /** `prevSlide`: the first slide wraps to the last. */
  function Prev(n: nat, i: int): (r: int)
    ensures 0 <= i < n ==> 0 <= r < n && r == (i - 1) % n
  {
    if i == 0 then n - 1 else i - 1
  }

  /** Back undoes forward, and forward undoes back, on every valid index. */
  lemma PrevNextInverse(n: nat, i: int)
    requires 0 <= i < n
    ensures Prev(n, Next(n, i)) == i
    ensures Next(n, Prev(n, i)) == i
  {
  }

  /** `k` presses of the next arrow. */
  function NextTimes(n: nat, i: int, k: nat): int
    decreases k
  {
    if k == 0 then i else NextTimes(n, Next(n, i), k - 1)
  }

  lemma {:induction false} NextTimesAdd(n: nat, i: int, a: nat, b: nat)
    ensures NextTimes(n, i, a + b) == NextTimes(n, NextTimes(n, i, a), b)
    decreases a
  {
    if a > 0 {
      NextTimesAdd(n, Next(n, i), a - 1, b);
    }
  }

  /** Below the last slide, each press moves one slide on. */
  lemma {:induction false} NextTimesClimbs(n: nat, i: int, k: nat)
    requires 0 <= i && i + k < n
    ensures NextTimes(n, i, k) == i + k
    decreases k
  {
    if k > 0 {
      NextTimesClimbs(n, i + 1, k - 1);
    }
  }

  /** Pressing next once per slide comes back to where it started. */
  lemma FullCycle(n: nat, i: int)
    requires 0 <= i < n
    ensures NextTimes(n, i, n) == i
  {
    NextTimesAdd(n, i, n - 1 - i, 1 + i);
    NextTimesClimbs(n, i, n - 1 - i);
    NextTimesAdd(n, n - 1, 1, i);
    NextTimesClimbs(n, 0, i);
  }

  /** One dot per slide; the dot at position `k` selects index `k`. */
  function Dots(n: nat): (ds: seq<int>)
    ensures |ds| == n
    ensures forall k :: 0 <= k < n ==> 0 <= ds[k] < n
  {
    seq(n, k => k)
  }

  /** A press on one of the carousel's controls; `Dot(p)` is the p-th dot. */
  datatype Move = Forward | Back | Dot(position: nat)

  /** A press on a dot that is not rendered does nothing. */
  function Step(n: nat, i: int, m: Move): int
  {
    match m
    case Forward => Next(n, i)
    case Back => Prev(n, i)
    case Dot(p) => if p < n then Dots(n)[p] else i
  }

  function Steps(n: nat, i: int, moves: seq<Move>): int
    decreases |moves|
  {
    if |moves| == 0 then i else Steps(n, Step(n, i, moves[0]), moves[1..])
  }

  /** However the controls are pressed, the index stays a valid slide position. */
  lemma {:induction false} StepsStayInRange(n: nat, i: int, moves: seq<Move>)
    requires 0 <= i < n
    ensures 0 <= Steps(n, i, moves) < n
    decreases |moves|
  {
    if |moves| > 0 {
      StepsStayInRange(n, Step(n, i, moves[0]), moves[1..]);
    }
  }

  /** For each slide position, whether that slide is the opaque one. */
  function Visible(n: nat, i: int): (v: seq<bool>)
    ensures |v| == n
    ensures forall k :: 0 <= k < n ==> (v[k] <==> k == i)
  {
    seq(n, k => k == i)
  }

  function CountTrue(bs: seq<bool>): nat
    decreases |bs|
  {
    if |bs| == 0 then 0 else CountTrue(bs[..|bs| - 1]) + (if bs[|bs| - 1] then 1 else 0)
  }

  /** A valid index shows exactly one slide; any other shows none. */
  lemma {:induction false} VisibleCount(n: nat, i: int)
    ensures CountTrue(Visible(n, i)) == if 0 <= i < n then 1 else 0
    decreases n
  {
    if n > 0 {
      var v := Visible(n, i);
      assert v[..n - 1] == Visible(n - 1, i);
      VisibleCount(n - 1, i);
    }
  }

  /** From the first slide, every sequence of presses leaves exactly one slide visible. */
  lemma ExactlyOneVisible(n: nat, moves: seq<Move>)
    requires n > 0
    ensures CountTrue(Visible(n, Steps(n, 0, moves))) == 1
  {
    StepsStayInRange(n, 0, moves);
    VisibleCount(n, Steps(n, 0, moves));
  }
}

=== FILE: console_trace.dfy ===
/**
 * Any sequence of console handler pieces and the invariants every such
 * sequence keeps. The whole-system operations are themselves such sequences.
 *
 * The traces admit more than the page can do: `RefreshOf` stands for
 * `refreshAllStatus`, which nothing on the page calls, and a finishing start
 * may carry any pid as the one its handler saw.
 */
module ConsoleTrace {
  import opened Options
  import opened LogBuffer
  import opened ServiceConsole
  import opened Orchestrator

  /** One atomic piece of a handler; async handlers are split where they suspend. */
  datatype Action =
    | BeginStartOf(id: ServiceId)
    | FinishStartOf(id: ServiceId, outcome: LaunchOutcome, seenPid: Option<Pid>)
    | StopOf(id: ServiceId)
    | RefreshOf(probe: ProbeResult)
    | CaptureOutputOf(fetch: LinesResult)
    | SystemLog(level: Level, message: string)
    | ClearLogsOf

  datatype Step = Step(now: string, action: Action)

  function Apply(c: Console, s: Step): Console
  {
    match s.action
    case BeginStartOf(id) => BeginStart(c, id, s.now)
    case FinishStartOf(id, outcome, seenPid) => FinishStart(c, id, outcome, seenPid, s.now)
    case StopOf(id) => Stop(c, id, s.now)
    case RefreshOf(probe) => Refresh(c, probe, s.now)
    case CaptureOutputOf(fetch) => CaptureOutput(c, fetch, s.now)
    case SystemLog(level, message) => Log(c, "system", level, message, s.now)
    case ClearLogsOf => c.(logs := ClearLogs(c.logs))
  }

  function Run(c: Console, steps: seq<Step>): Console
    decreases |steps|
  {
    if |steps| == 0 then c else Run(Apply(c, steps[0]), steps[1..])
  }

  lemma {:induction false} RunConcat(c: Console, a: seq<Step>, b: seq<Step>)
    ensures Run(c, a + b) == Run(Run(c, a), b)
    decreases |a|
  {
    if |a| == 0 {
      assert a + b == b;
    } else {
      assert (a + b)[0] == a[0];
      assert (a + b)[1..] == a[1..] + b;
      RunConcat(Apply(c, a[0]), a[1..], b);
    }
  }

  lemma RunOne(c: Console, s: Step)
    ensures Run(c, [s]) == Apply(c, s)
  {
    assert [s][1..] == [];
  }

  lemma RunTwo(c: Console, s: Step, t: Step)
    ensures Run(c, [s, t]) == Apply(Apply(c, s), t)
  {
    assert [s, t][1..] == [t];
    assert Run(c, [s, t]) == Run(Apply(c, s), [t]);
    RunOne(Apply(c, s), t);
  }

  /** The two steps of one start handler, invoked from a render that showed `seenPid`. */
  function StartSteps(id: ServiceId, outcome: LaunchOutcome, seenPid: Option<Pid>, now: string): seq<Step>
  {
    [Step(now, BeginStartOf(id)), Step(now, FinishStartOf(id, outcome, seenPid))]
  }

  /** The three service starts of a start-all, each seeing the registry `seen` of the click. */
  function ServiceStartSteps(plan: LaunchPlan, seen: Registry, now: string): seq<Step>
  {
    StartSteps(WebServer, plan.webserver, seen.webserver.pid, now)
    + StartSteps(Task, plan.task, seen.task.pid, now)
    + StartSteps(Extract, plan.extract, seen.extract.pid, now)
  }

  /** Start-all is the opening line, the three starts in order, and the closing line. */
  function StartAllSteps(plan: LaunchPlan, seen: Registry, now: string): seq<Step>
  {
    [Step(now, SystemLog(Info, StartAllBegun))]
    + ServiceStartSteps(plan, seen, now)
    + [Step(now, SystemLog(Success, StartAllDone))]
  }

  lemma StartIsRun(c: Console, id: ServiceId, outcome: LaunchOutcome, now: string)
    ensures Start(c, id, outcome, now) == Run(c, StartSteps(id, outcome, Get(c.services, id).pid, now))
  {
    var steps := StartSteps(id, outcome, Get(c.services, id).pid, now);
    RunTwo(c, steps[0], steps[1]);
  }

  lemma StartsAreRun(c: Console, plan: LaunchPlan, seen: Registry, now: string)
    requires c.services == seen
    ensures
      var c2 := Start(c, WebServer, plan.webserver, now);
      var c3 := Start(c2, Task, plan.task, now);
      Start(c3, Extract, plan.extract, now) == Run(c, ServiceStartSteps(plan, seen, now))
  {
    var w := StartSteps(WebServer, plan.webserver, seen.webserver.pid, now);
    var t := StartSteps(Task, plan.task, seen.task.pid, now);
    var x := StartSteps(Extract, plan.extract, seen.extract.pid, now);
    var c2 := Start(c, WebServer, plan.webserver, now);
    var c3 := Start(c2, Task, plan.task, now);
    assert Get(c2.services, Task).pid == seen.task.pid;
    assert Get(c3.services, Extract).pid == seen.extract.pid;
    StartIsRun(c, WebServer, plan.webserver, now);
    StartIsRun(c2, Task, plan.task, now);
    StartIsRun(c3, Extract, plan.extract, now);
    RunConcat(c, w, t);
    RunConcat(c, w + t, x);
  }

  lemma SystemLogIsRun(c: Console, level: Level, message: string, now: string)
    ensures Log(c, "system", level, message, now) == Run(c, [Step(now, SystemLog(level, message))])
  {
    RunOne(c, Step(now, SystemLog(level, message)));
  }

  lemma StartAllIsRun(c: Console, plan: LaunchPlan, now: string)
    ensures StartAll(c, plan, now) == Run(c, StartAllSteps(plan, c.services, now))
  {
    var open := [Step(now, SystemLog(Info, StartAllBegun))];
    var starts := ServiceStartSteps(plan, c.services, now);
    var close := [Step(now, SystemLog(Success, StartAllDone))];
    var c1 := Log(c, "system", Info, StartAllBegun, now);
    var c4 := Start(Start(Start(c1, WebServer, plan.webserver, now), Task, plan.task, now), Extract, plan.extract, now);
    SystemLogIsRun(c, Info, StartAllBegun, now);
    StartsAreRun(c1, plan, c.services, now);
    SystemLogIsRun(c4, Success, StartAllDone, now);
    RunConcat(c, open, starts);
    RunConcat(c, open + starts, close);
  }

  /** Stop-all is the three stops in order and the closing line. */
  function StopAllSteps(now: string): seq<Step>
  {
    [Step(now, StopOf(WebServer)), Step(now, StopOf(Task)), Step(now, StopOf(Extract)),
     Step(now, SystemLog(Info, StopAllDone))]
  }

  lemma StopAllIsRun(c: Console, now: string)
    ensures StopAll(c, now) == Run(c, StopAllSteps(now))
  {
    var steps := StopAllSteps(now);
    var c2 := Stop(Stop(c, WebServer, now), Task, now);
    RunTwo(c, steps[0], steps[1]);
    RunTwo(c2, steps[2], steps[3]);
    assert steps == steps[..2] + steps[2..];
    RunConcat(c, steps[..2], steps[2..]);
  }

  /**
   * The log view stays within its cap, and only the extraction script ever
   * holds captured output.
   */
  predicate WellFormed(c: Console)
  {
    && |c.logs| <= Capacity
    && c.services.webserver.scriptOutput == None
    && c.services.task.scriptOutput == None
  }

  lemma ApplyPreservesWellFormed(c: Console, s: Step)
    requires WellFormed(c)
    ensures WellFormed(Apply(c, s))
  {
  }

  /** Every console reachable from a well-formed one is well formed. */
  lemma {:induction false} RunPreservesWellFormed(c: Console, steps: seq<Step>)
    requires WellFormed(c)
    ensures WellFormed(Run(c, steps))
    decreases |steps|
  {
    if |steps| > 0 {
      ApplyPreservesWellFormed(c, steps[0]);
      RunPreservesWellFormed(Apply(c, steps[0]), steps[1..]);
    }
  }

  /** So is every console the page can reach, including through start-all and stop-all. */
  lemma ReachableWellFormed(steps: seq<Step>, plan: LaunchPlan, now: string)
    ensures WellFormed(Run(InitialConsole, steps))
    ensures WellFormed(StartAll(Run(InitialConsole, steps), plan, now))
    ensures WellFormed(StopAll(Run(InitialConsole, steps), now))
  {
    var c := Run(InitialConsole, steps);
    RunPreservesWellFormed(InitialConsole, steps);
    StartAllIsRun(c, plan, now);
    RunPreservesWellFormed(c, StartAllSteps(plan, c.services, now));
    StopAllIsRun(c, now);
    RunPreservesWellFormed(c, StopAllSteps(now));
  }

  /** Whether a step can change the record of service `id`. */
  predicate Touches(s: Step, id: ServiceId)
  {
    match s.action
    case BeginStartOf(i) => i == id
    case FinishStartOf(i, _, _) => i == id
    case StopOf(i) => i == id
    case RefreshOf(_) => true
    case CaptureOutputOf(_) => id == Extract
    case SystemLog(_, _) => false
    case ClearLogsOf => false
  }

  lemma ApplyFrame(c: Console, s: Step, id: ServiceId)
    requires !Touches(s, id)
    ensures Get(Apply(c, s).services, id) == Get(c.services, id)
  {
    match s.action
    case BeginStartOf(i) => OthersUnchangedGet(c.services, Apply(c, s).services, i);
    case FinishStartOf(i, _, _) => OthersUnchangedGet(c.services, Apply(c, s).services, i);
    case StopOf(i) => OthersUnchangedGet(c.services, Apply(c, s).services, i);
    case CaptureOutputOf(_) => OthersUnchangedGet(c.services, Apply(c, s).services, Extract);
    case RefreshOf(_) =>
    case SystemLog(_, _) =>
    case ClearLogsOf =>
  }

  /** Handlers aimed at other services never move this service's record. */
  lemma {:induction false} UntouchedRecordUnchanged(c: Console, steps: seq<Step>, id: ServiceId)
    requires forall k :: 0 <= k < |steps| ==> !Touches(steps[k], id)
    ensures Get(Run(c, steps).services, id) == Get(c.services, id)
    decreases |steps|
  {
    if |steps| > 0 {
      ApplyFrame(c, steps[0], id);
      UntouchedRecordUnchanged(Apply(c, steps[0]), steps[1..], id);
    }
  }
}

=== FILE: doc_trans_pro.dfy ===
/**
 * The DocTransPro panel: one desktop GUI program that can be launched,
 * stopped and probed, a four-step progress indicator and a status badge.
 * The simulated requests behind each handler become outcome parameters.
 */
module DocTransPro {
  import opened Options
  import SC = ServiceConsole

  datatype GuiState = GuiState(
    launching: bool,
    isRunning: bool,
    error: string,
    lastStartTime: Option<string>,
    guiProcessId: Option<nat>,
    currentStep: int)

  const Initial := GuiState(false, false, "", None, None, 0)

  /** What the launch request came back with: a process id and start time, or a failure. */
  datatype GuiLaunch = GuiLaunched(processId: nat, startTime: string) | GuiLaunchFailed(message: string)

  /** Whether a stop or status request went through or threw. */
  datatype Reply = Answered | Threw(message: string)

  const LaunchFailedPrefix: string := "GUI程序启动失败："
  const StopFailedPrefix: string := "停止GUI程序失败："
  const CheckFailedPrefix: string := "状态检查失败："

  /** First half of `launchGUI`: mark the launch, clear the error, show step 1. */
  function BeginLaunch(s: GuiState): (s': GuiState)
    ensures s'.launching && s'.error == "" && s'.currentStep == 1
    ensures s'.isRunning == s.isRunning && s'.guiProcessId == s.guiProcessId
    ensures s'.lastStartTime == s.lastStartTime
  {
    s.(launching := true, error := "", currentStep := 1)
  }

  /** Second half of `launchGUI`: the request's outcome, then `launching` cleared in any case. */
  function FinishLaunch(s: GuiState, outcome: GuiLaunch): (s': GuiState)
    ensures !s'.launching
    ensures outcome.GuiLaunched? ==>
      s'.isRunning && s'.guiProcessId == Some(outcome.processId)
      && s'.lastStartTime == Some(outcome.startTime) && s'.currentStep == 2 && s'.error == s.error
    ensures outcome.GuiLaunchFailed? ==>
      !s'.isRunning && s'.guiProcessId == None && s'.currentStep == 0
      && s'.error == LaunchFailedPrefix + outcome.message && s'.lastStartTime == s.lastStartTime
  {
    match outcome
    case GuiLaunched(pid, time) =>
      s.(isRunning := true, guiProcessId := Some(pid), lastStartTime := Some(time),
         currentStep := 2, launching := false)
    case GuiLaunchFailed(m) =>
      s.(error := LaunchFailedPrefix + m, isRunning := false, guiProcessId := None,
         currentStep := 0, launching := false)
  }

  /**
   * The whole `launchGUI` handler with its request resolved: a success
   * shows the new program at step 2 with no error; a failure shows the
   * prefixed message at step 0 with no program.
   */
  function Launch(s: GuiState, outcome: GuiLaunch): (s': GuiState)
    ensures !s'.launching
    ensures outcome.GuiLaunched? ==>
      s'.isRunning && s'.guiProcessId == Some(outcome.processId)
      && s'.lastStartTime == Some(outcome.startTime) && s'.currentStep == 2 && s'.error == ""
    ensures outcome.GuiLaunchFailed? ==>
      !s'.isRunning && s'.guiProcessId == None && s'.currentStep == 0
      && s'.error == LaunchFailedPrefix + outcome.message && s'.lastStartTime == s.lastStartTime
  {
    FinishLaunch(BeginLaunch(s), outcome)
  }

  /**
   * The timer a successful launch arms: step 3, whatever happened in the
   * meantime (it is not cancelled by a stop).
   */
  function LaunchTimerFires(s: GuiState): (s': GuiState)
    ensures s'.currentStep == 3 && s' == s.(currentStep := 3)
  {
    s.(currentStep := 3)
  }

  /** `stopGUI`: the program and its id are gone and step 4 shows; the error is kept. */
  function Stop(s: GuiState, reply: Reply): (s': GuiState)
    ensures reply.Answered? ==>
      !s'.isRunning && s'.guiProcessId == None && s'.currentStep == 4
      && s'.error == s.error && s'.launching == s.launching && s'.lastStartTime == s.lastStartTime
    ensures reply.Threw? ==> s' == s.(error := StopFailedPrefix + reply.message)
  {
    match reply
    case Answered => s.(isRunning := false, guiProcessId := None, currentStep := 4)
    case Threw(m) => s.(error := StopFailedPrefix + m)
  }

  /**
   * `checkGUIStatus`: step 3 or step 4 by `seenRunning`, the `isRunning` of
   * the render whose button was clicked, not the flag when the request
   * returns; nothing else moves.
   */
  function CheckStatus(s: GuiState, reply: Reply, seenRunning: bool): (s': GuiState)
    ensures reply.Answered? ==> s'.currentStep == (if seenRunning then 3 else 4)
    ensures reply.Answered? ==> s' == s.(currentStep := s'.currentStep)
    ensures reply.Threw? ==> s' == s.(error := CheckFailedPrefix + reply.message)
  {
    match reply
    case Answered => if seenRunning then s.(currentStep := 3) else s.(currentStep := 4)
    case Threw(m) => s.(error := CheckFailedPrefix + m)
  }

  /**
   * The check button exists only while the program runs, so a check clicked
   * before a stop completes still shows step 3 after the stop: the panel
   * reads not running at the "running" step.
   */
  lemma CheckClickedBeforeStopShowsStepThree(s: GuiState)
    ensures var s' := CheckStatus(Stop(s, Answered), Answered, true);
      !s'.isRunning && s'.guiProcessId == None && s'.currentStep == 3
  {
  }

  /** `clearError`: the error panel closes; nothing else changes. */
  function ClearError(s: GuiState): (s': GuiState)
    ensures s'.error == "" && s' == s.(error := "")
  {
    s.(error := "")
  }

  /** Status badge type: launching, then a non-empty error, then running. */
  function StatusTypeOf(s: GuiState): (t: SC.StatusType)
    ensures t == SC.WarningStatus <==> s.launching
    ensures t == SC.DangerStatus <==> !s.launching && s.error != ""
    ensures t == SC.SuccessStatus <==> !s.launching && s.error == "" && s.isRunning
    ensures t == SC.InfoStatus <==> !s.launching && s.error == "" && !s.isRunning
  {
    if s.launching then SC.WarningStatus
    else if s.error != "" then SC.DangerStatus
    else if s.isRunning then SC.SuccessStatus
    else SC.InfoStatus
  }

  /** Status badge text, with the same priority as the type. */
  function StatusTextOf(s: GuiState): (text: string)
    ensures text == "正在启动" <==> s.launching
    ensures text == "启动失败" <==> !s.launching && s.error != ""
    ensures text == "程序运行中" <==> !s.launching && s.error == "" && s.isRunning
    ensures text == "待启动" <==> !s.launching && s.error == "" && !s.isRunning
  {
    if s.launching then "正在启动"
    else if s.error != "" then "启动失败"
    else if s.isRunning then "程序运行中"
    else "待启动"
  }

  /** The label each status type is shown with on this panel. */
  function Label(t: SC.StatusType): string
  {
    match t
    case WarningStatus => "正在启动"
    case DangerStatus => "启动失败"
    case SuccessStatus => "程序运行中"
    case InfoStatus => "待启动"
  }

  /** The badge's type and text pick the same case, and the text alone tells the type. */
  lemma StatusTextAgreesWithType(s: GuiState)
    ensures StatusTextOf(s) == Label(StatusTypeOf(s))
    ensures forall t :: Label(t) == StatusTextOf(s) ==> t == StatusTypeOf(s)
  {
  }

  /**
   * Unlike the service console, an error outranks running here: a running
   * program with a failed stop reports "启动失败".
   */
  lemma ErrorOutranksRunning(s: GuiState, m: string)
    requires s.isRunning && !s.launching
    ensures StatusTypeOf(Stop(s, Threw(m))) == SC.DangerStatus
    ensures StatusTextOf(Stop(s, Threw(m))) == "启动失败"
  {
  }

  /** The launch button is disabled while launching or running. */
  predicate LaunchEnabled(s: GuiState)
  {
    !s.launching && !s.isRunning
  }

  /** The check and stop buttons are rendered only while running. */
  predicate StopShown(s: GuiState)
  {
    s.isRunning
  }

  /** The error panel is rendered for a non-empty error. */
  predicate ErrorShown(s: GuiState)
  {
    s.error != ""
  }

  /**
   * A completed launch reads "running" exactly when the request succeeded,
   * and "failed" with the error panel open exactly when it threw.
   */
  lemma LaunchStatus(s: GuiState, outcome: GuiLaunch)
    ensures var s' := Launch(s, outcome);
      && (StatusTypeOf(s') == SC.SuccessStatus <==> outcome.GuiLaunched?)
      && (StatusTypeOf(s') == SC.DangerStatus <==> outcome.GuiLaunchFailed?)
      && (ErrorShown(s') <==> outcome.GuiLaunchFailed?)
      && (StopShown(s') <==> outcome.GuiLaunched?)
      && (LaunchEnabled(s') <==> outcome.GuiLaunchFailed?)
  {
  }

  /** Clearing the error after a failed launch brings the panel back to "待启动". */
  lemma ClearErrorAfterFailure(s: GuiState, m: string)
    ensures var s' := ClearError(Launch(s, GuiLaunchFailed(m)));
      StatusTypeOf(s') == SC.InfoStatus && LaunchEnabled(s') && s'.currentStep == 0
  {
  }

  /** One handler call, with the outcome of its request. */
  datatype GuiAction =
    | BeginLaunchOf
    | FinishLaunchOf(outcome: GuiLaunch)
    | TimerOf
    | StopOf(reply: Reply)
    | CheckOf(reply: Reply, seenRunning: bool)
    | ClearErrorOf

  function Apply(s: GuiState, a: GuiAction): GuiState
  {
    match a
    case BeginLaunchOf => BeginLaunch(s)
    case FinishLaunchOf(o) => FinishLaunch(s, o)
    case TimerOf => LaunchTimerFires(s)
    case StopOf(r) => Stop(s, r)
    case CheckOf(r, seen) => CheckStatus(s, r, seen)
    case ClearErrorOf => ClearError(s)
  }

  /** The actions applied in order. */
  function Run(s: GuiState, actions: seq<GuiAction>): GuiState
    decreases |actions|
  {
    if |actions| == 0 then s else Run(Apply(s, actions[0]), actions[1..])
  }

  /**
   * The panel's consistency: the step is one of the five shown, a process id
   * is held exactly while running, and a running program has a start time.
   */
  predicate Consistent(s: GuiState)
  {
    && 0 <= s.currentStep <= 4
    && (s.isRunning <==> s.guiProcessId.Some?)
    && (s.isRunning ==> s.lastStartTime.Some?)
  }

  lemma ApplyKeepsConsistent(s: GuiState, a: GuiAction)
    requires Consistent(s)
    ensures Consistent(Apply(s, a))
  {
  }

  /** Every sequence of handler calls from the initial panel keeps it consistent. */
  lemma {:induction false} RunKeepsConsistent(s: GuiState, actions: seq<GuiAction>)
    requires Consistent(s)
    ensures Consistent(Run(s, actions))
    decreases |actions|
  {
    if |actions| > 0 {
      ApplyKeepsConsistent(s, actions[0]);
      RunKeepsConsistent(Apply(s, actions[0]), actions[1..]);
    }
  }

  lemma ReachableConsistent(actions: seq<GuiAction>)
    ensures Consistent(Run(Initial, actions))
  {
    RunKeepsConsistent(Initial, actions);
  }
}

=== FILE: log_buffer.dfy ===
/**
 * The console's log view: a newest-first list of entries that is cut back
 * to its newest half whenever a new entry would push it past its cap.
 */
module LogBuffer {
  import opened Sequences

  datatype Level = Info | Success | Warning | Error

  /**
   * One log line. `time` is the already formatted `toLocaleTimeString()`
   * text and `service` is "system" or a service name.
   */
  datatype LogEntry = LogEntry(time: string, service: string, level: Level, message: string)

  /** Most entries the view ever holds. */
  const Capacity: nat := 200
  /** Entries kept when an insertion overflows the cap. */
  const Retained: nat := 100

  /** `addLog`: the new entry goes first; an overflow keeps the newest `Retained`. */
  function AddLog(logs: seq<LogEntry>, e: LogEntry): (r: seq<LogEntry>)
    ensures |r| >= 1 && r[0] == e
    ensures |logs| <= Capacity ==> |r| <= Capacity
    ensures |r| == if |logs| + 1 > Capacity then Retained else |logs| + 1
    ensures r == ([e] + logs)[..|r|]
  {
    var grown := [e] + logs;
    if |grown| > Capacity then grown[..Retained] else grown
  }

  /** `clearLogs`. */
  function ClearLogs(logs: seq<LogEntry>): (r: seq<LogEntry>)
    ensures |r| == 0
  {
    []
  }

  /** Appends several entries, oldest first, one `addLog` at a time. */
  function AddLogs(logs: seq<LogEntry>, es: seq<LogEntry>): seq<LogEntry>
    decreases |es|
  {
    if |es| == 0 then logs else AddLogs(AddLog(logs, es[0]), es[1..])
  }

  /** Appending two batches one after the other is appending their concatenation. */
  lemma {:induction false} AddLogsConcat(logs: seq<LogEntry>, a: seq<LogEntry>, b: seq<LogEntry>)
    ensures AddLogs(logs, a + b) == AddLogs(AddLogs(logs, a), b)
    decreases |a|
  {
    if |a| == 0 {
      assert a + b == b;
    } else {
      assert (a + b)[0] == a[0];
      assert (a + b)[1..] == a[1..] + b;
      AddLogsConcat(AddLog(logs, a[0]), a[1..], b);
    }
  }

  /**
   * Whatever the buffer held, a batch of at most `Retained` entries ends up
   * on top of it, newest first: an overflow partway through cuts only older
   * entries.
   */
  lemma {:induction false} TopIsBatch(logs: seq<LogEntry>, es: seq<LogEntry>)
    requires |es| <= Retained
    ensures |AddLogs(logs, es)| >= |es|
    ensures AddLogs(logs, es)[..|es|] == Reverse(es)
    decreases |es|
  {
    if |es| > 0 {
      var prior, e := es[..|es| - 1], es[|es| - 1];
      assert es == prior + [e];
      TopIsBatch(logs, prior);
      var a := AddLogs(logs, prior);
      AddLogsConcat(logs, prior, [e]);
      assert AddLogs(a, [e]) == AddLogs(AddLog(a, e), []);
      var r := AddLog(a, e);
      assert r[..|es|] == ([e] + a)[..|es|];
      assert ([e] + a)[..|es|] == [e] + a[..|prior|];
      ReverseSnoc(prior, e);
    }
  }

  /** With room to spare, appending a batch simply prepends it in reverse. */
  lemma {:induction false} AddLogsWithoutOverflow(logs: seq<LogEntry>, es: seq<LogEntry>)
    requires |logs| + |es| <= Capacity
    ensures AddLogs(logs, es) == Reverse(es) + logs
    decreases |es|
  {
    if |es| > 0 {
      var next := AddLog(logs, es[0]);
      assert next == [es[0]] + logs;
      assert AddLogs(logs, es) == AddLogs(next, es[1..]);
      AddLogsWithoutOverflow(next, es[1..]);
      assert Reverse(es) == Reverse(es[1..]) + [es[0]];
      assert Reverse(es[1..]) + ([es[0]] + logs) == (Reverse(es[1..]) + [es[0]]) + logs;
    }
  }

  /** The buffer after a whole history of `addLog` calls, starting from empty. */
  function Replay(history: seq<LogEntry>): seq<LogEntry>
  {
    if |history| == 0 then []
    else AddLog(Replay(history[..|history| - 1]), history[|history| - 1])
  }

  /**
   * Whatever the history, the buffer holds exactly its newest entries, newest
   * first, never more than the cap and never fewer than the retained half
   * (or the whole history while it is short).
   */
  lemma {:induction false} ReplayIsNewestSuffix(history: seq<LogEntry>)
    ensures |Replay(history)| <= |history|
    ensures |Replay(history)| <= Capacity
    ensures |history| <= Retained ==> |Replay(history)| == |history|
    ensures |history| > Retained ==> |Replay(history)| >= Retained
    ensures Replay(history) == Reverse(history)[..|Replay(history)|]
  {
    if |history| > 0 {
      var n := |history|;
      var prior := history[..n - 1];
      var x := history[n - 1];
      assert history == prior + [x];
      ReplayIsNewestSuffix(prior);
      var r0 := Replay(prior);
      var r := Replay(history);
      assert r == AddLog(r0, x);
      assert r == ([x] + r0)[..|r|];
      ReverseSnoc(prior, x);
      assert Reverse(history) == [x] + Reverse(prior);
      PrependTake(x, r0, Reverse(prior), |r|);
    }
  }

  /**
   * The exact length after n insertions from empty: it grows one by one up
   * to the cap, drops to the retained half on the next insertion, and
   * repeats that 101-step cycle from then on.
   */
  lemma {:induction false} ReplayLength(history: seq<LogEntry>)
    ensures |Replay(history)| ==
      if |history| <= Capacity then |history|
      else Retained + (|history| - Capacity - 1) % (Capacity - Retained + 1)
  {
    var n := |history|;
    if n > 0 {
      var prior := Replay(history[..n - 1]);
      ReplayLength(history[..n - 1]);
      assert Replay(history) == AddLog(prior, history[n - 1]);
      if n > Capacity + 1 {
        CycleStep(n - Capacity - 2);
      }
    }
  }

  /** One more step around the 101-step cycle. */
  lemma CycleStep(k: nat)
    ensures (k + 1) % (Capacity - Retained + 1) ==
      if k % (Capacity - Retained + 1) == Capacity - Retained then 0 else k % (Capacity - Retained + 1) + 1
  {
  }

  /** Inserting one entry past a full buffer leaves exactly the newest half. */
  lemma OverflowLeavesHalf(history: seq<LogEntry>)
    requires |history| == Capacity + 1
    ensures |Replay(history)| == Retained
    ensures Replay(history) == Reverse(history)[..Retained]
  {
    ReplayLength(history);
    ReplayIsNewestSuffix(history);
  }
}

=== FILE: options.dfy ===
/** The JavaScript `null`-or-value idiom, as a datatype. */
module Options {

  datatype Option<+T> = None | Some(value: T)
}

=== FILE: orchestrator.dfy ===
/**
 * `startAllServices` and `stopAllServices`: the whole-system operations of
 * the service console, built from the per-service handlers.
 */
module Orchestrator {
  import opened Options
  import opened Sequences
  import opened LogBuffer
  import opened ServiceConsole

  /** The launcher's answer for each service during one start-all. */
  datatype LaunchPlan = LaunchPlan(webserver: LaunchOutcome, task: LaunchOutcome, extract: LaunchOutcome)

  function OutcomeFor(plan: LaunchPlan, id: ServiceId): LaunchOutcome
  {
    match id
    case WebServer => plan.webserver
    case Task => plan.task
    case Extract => plan.extract
  }

  const StartAllBegun: string := "开始启动所有服务..."
  const StartAllDone: string := "所有服务启动完成"
  const StopAllDone: string := "所有服务已停止"

  /** Each record as its own launch outcome leaves it. */
  function LaunchAll(reg: Registry, plan: LaunchPlan): Registry
  {
    Registry(
      Launch(reg.webserver, plan.webserver),
      Launch(reg.task, plan.task),
      Launch(reg.extract, plan.extract))
  }

  /**
   * `startAllServices`: web server, then task worker, then extraction script.
   * Each start keeps its own failure to itself, so the closing success line
   * is always reached and each service ends as its own launch dictates.
   */
  function StartAll(c: Console, plan: LaunchPlan, now: string): (c': Console)
    ensures c'.services == LaunchAll(c.services, plan)
    ensures |c'.logs| > 0 && c'.logs[0] == LogEntry(now, "system", Success, StartAllDone)
  {
    var c1 := Log(c, "system", Info, StartAllBegun, now);
    var c2 := Start(c1, WebServer, plan.webserver, now);
    var c3 := Start(c2, Task, plan.task, now);
    var c4 := Start(c3, Extract, plan.extract, now);
    Log(c4, "system", Success, StartAllDone, now)
  }

  /** A failed launch of one service does not touch the others' outcomes. */
  lemma StartAllIsolatesFailures(c: Console, plan: LaunchPlan, now: string, id: ServiceId)
    ensures Get(StartAll(c, plan, now).services, id) == Launch(Get(c.services, id), OutcomeFor(plan, id))
  {
  }

  /** The two lines one service's start writes, given the pid its handler saw. */
  function StartEntries(id: ServiceId, outcome: LaunchOutcome, seenPid: Option<Pid>, now: string): seq<LogEntry>
  {
    [LogEntry(now, Name(id), Info, StartingMessage(id)), OutcomeEntry(id, outcome, seenPid, now)]
  }

  /** Every line a start-all writes, oldest first. */
  function StartAllEntries(c: Console, plan: LaunchPlan, now: string): seq<LogEntry>
  {
    var reg := c.services;
    [LogEntry(now, "system", Info, StartAllBegun),
     LogEntry(now, Name(WebServer), Info, StartingMessage(WebServer)),
     OutcomeEntry(WebServer, plan.webserver, reg.webserver.pid, now),
     LogEntry(now, Name(Task), Info, StartingMessage(Task)),
     OutcomeEntry(Task, plan.task, reg.task.pid, now),
     LogEntry(now, Name(Extract), Info, StartingMessage(Extract)),
     OutcomeEntry(Extract, plan.extract, reg.extract.pid, now),
     LogEntry(now, "system", Success, StartAllDone)]
  }

  /** One start writes its two lines in order. */
  lemma StartLogs(c: Console, id: ServiceId, outcome: LaunchOutcome, now: string)
    ensures Start(c, id, outcome, now).logs ==
      AddLogs(c.logs, StartEntries(id, outcome, Get(c.services, id).pid, now))
  {
    var es := StartEntries(id, outcome, Get(c.services, id).pid, now);
    var l1 := AddLog(c.logs, es[0]);
    assert AddLogs(c.logs, es) == AddLogs(l1, es[1..]);
    assert AddLogs(l1, es[1..]) == AddLogs(AddLog(l1, es[1]), es[2..]);
    assert es[2..] == [];
  }

  /** The start-all log is exactly its eight lines, appended in the fixed service order. */
  lemma StartAllLogOrder(c: Console, plan: LaunchPlan, now: string)
    ensures StartAll(c, plan, now).logs == AddLogs(c.logs, StartAllEntries(c, plan, now))
  {
    var open := [LogEntry(now, "system", Info, StartAllBegun)];
    var w := StartEntries(WebServer, plan.webserver, c.services.webserver.pid, now);
    var t := StartEntries(Task, plan.task, c.services.task.pid, now);
    var x := StartEntries(Extract, plan.extract, c.services.extract.pid, now);
    var close := [LogEntry(now, "system", Success, StartAllDone)];
    var c1 := Log(c, "system", Info, StartAllBegun, now);
    var c2 := Start(c1, WebServer, plan.webserver, now);
    var c3 := Start(c2, Task, plan.task, now);
    var c4 := Start(c3, Extract, plan.extract, now);
    assert c1.logs == AddLogs(c.logs, open);
    StartLogs(c1, WebServer, plan.webserver, now);
    StartLogs(c2, Task, plan.task, now);
    StartLogs(c3, Extract, plan.extract, now);
    AddLogsConcat(c.logs, open, w);
    AddLogsConcat(c.logs, open + w, t);
    AddLogsConcat(c.logs, open + w + t, x);
    AddLogsConcat(c.logs, open + w + t + x, close);
    assert AddLogs(c4.logs, close) == AddLog(c4.logs, close[0]);
    StartAllEntriesPieces(c, plan, now);
  }

  /** The eight lines are the opening line, each service's pair, and the closing line. */
  lemma StartAllEntriesPieces(c: Console, plan: LaunchPlan, now: string)
    ensures StartAllEntries(c, plan, now) ==
      [LogEntry(now, "system", Info, StartAllBegun)]
      + StartEntries(WebServer, plan.webserver, c.services.webserver.pid, now)
      + StartEntries(Task, plan.task, c.services.task.pid, now)
      + StartEntries(Extract, plan.extract, c.services.extract.pid, now)
      + [LogEntry(now, "system", Success, StartAllDone)]
  {
  }

  /** Where each line of a start-all sits in its batch. */
  lemma StartAllEntriesShape(c: Console, plan: LaunchPlan, now: string)
    ensures var es := StartAllEntries(c, plan, now);
      && |es| == 8
      && es[0].message == StartAllBegun && es[7].message == StartAllDone
      && es[1].service == Name(WebServer) && es[2].service == Name(WebServer)
      && es[3].service == Name(Task) && es[4].service == Name(Task)
      && es[5].service == Name(Extract) && es[6].service == Name(Extract)
  {
  }

  /** With room in the buffer, the start-all lines are simply prepended, newest first. */
  lemma StartAllWithoutOverflow(c: Console, plan: LaunchPlan, now: string)
    requires |c.logs| + 8 <= Capacity
    ensures StartAll(c, plan, now).logs == Reverse(StartAllEntries(c, plan, now)) + c.logs
  {
    StartAllLogOrder(c, plan, now);
    AddLogsWithoutOverflow(c.logs, StartAllEntries(c, plan, now));
  }

  /**
   * So the start-all lines sit newest first: the extraction script's two
   * lines above the task worker's, above the web server's, between the
   * opening and closing system lines.
   */
  lemma StartAllLogsNewestFirst(c: Console, plan: LaunchPlan, now: string)
    ensures var logs := StartAll(c, plan, now).logs;
      && |logs| >= 8
      && logs[7].message == StartAllBegun
      && logs[6].service == Name(WebServer) && logs[5].service == Name(WebServer)
      && logs[4].service == Name(Task) && logs[3].service == Name(Task)
      && logs[2].service == Name(Extract) && logs[1].service == Name(Extract)
      && logs[0].message == StartAllDone
  {
    StartAllLogOrder(c, plan, now);
    StartAllEntriesShape(c, plan, now);
    var es := StartAllEntries(c, plan, now);
    var logs := StartAll(c, plan, now).logs;
    TopIsBatch(c.logs, es);
    PrependedBatchPositions(logs, es);
    assert logs[7] == es[0] && logs[0] == es[7];
    assert logs[6] == es[1] && logs[5] == es[2];
    assert logs[4] == es[3] && logs[3] == es[4];
    assert logs[2] == es[5] && logs[1] == es[6];
  }

  /** A log topped by a reversed batch holds the batch's k-th newest entry at index k. */
  lemma PrependedBatchPositions(logs: seq<LogEntry>, es: seq<LogEntry>)
    requires |logs| >= |es| && logs[..|es|] == Reverse(es)
    ensures forall k :: 0 <= k < |es| ==> logs[k] == es[|es| - 1 - k]
  {
    forall k | 0 <= k < |es|
      ensures logs[k] == es[|es| - 1 - k]
    {
      assert logs[k] == logs[..|es|][k];
      ReverseIndex(es, k);
    }
  }

  /** Every record as a stop leaves it. */
  function HaltAll(reg: Registry): Registry
  {
    Registry(Halt(WebServer, reg.webserver), Halt(Task, reg.task), Halt(Extract, reg.extract))
  }

  /**
   * `stopAllServices`: all three stops, then one system line. The stops
   * never suspend, so running them "in parallel" runs them in list order.
   */
  function StopAll(c: Console, now: string): (c': Console)
    ensures c'.services == HaltAll(c.services)
    ensures !c'.services.webserver.running && c'.services.webserver.pid == None
    ensures !c'.services.task.running && c'.services.task.pid == None
    ensures !c'.services.extract.running && c'.services.extract.pid == None
    ensures |c'.logs| > 0 && c'.logs[0] == LogEntry(now, "system", Info, StopAllDone)
  {
    var c1 := Stop(c, WebServer, now);
    var c2 := Stop(c1, Task, now);
    var c3 := Stop(c2, Extract, now);
    Log(c3, "system", Info, StopAllDone, now)
  }

  /**
   * Start-all followed by stop-all leaves nothing running or starting; a
   * service shows the error badge exactly when its own launch failed with a
   * non-empty message.
   */
  lemma StartAllThenStopAll(c: Console, plan: LaunchPlan, now: string, later: string, id: ServiceId)
    ensures var r := Get(StopAll(StartAll(c, plan, now), later).services, id);
      && !r.running && !r.starting && r.pid == None
      && StatusTypeOf(r) in {DangerStatus, InfoStatus}
      && (StatusTypeOf(r) == DangerStatus <==>
            OutcomeFor(plan, id).LaunchFailed? && OutcomeFor(plan, id).message != "")
  {
  }
}

=== FILE: prov_bench.dfy ===
/**
 * The ProvBench panel: three consistency models that can each be run, a
 * per-model loading flag that disables every run button, and a results
 * list that grows newest first without bound until it is cleared.
 */
module ProvBench {
  import opened Options
  import opened Sequences

  datatype ModelKind = LegalBert | Bert | Roberta

  /** The name a model is shown under in its results. */
  function DisplayName(m: ModelKind): string
  {
    match m
    case LegalBert => "LegalBERT"
    case Bert => "BERT"
    case Roberta => "RoBERTa"
  }

  datatype Loading = Loading(legalbert: bool, bert: bool, roberta: bool)

  const NoneLoading := Loading(false, false, false)

  function IsLoading(l: Loading, m: ModelKind): bool
  {
    match m
    case LegalBert => l.legalbert
    case Bert => l.bert
    case Roberta => l.roberta
  }

  /** The loading map with one model's flag set to `v`. */
  function SetLoading(l: Loading, m: ModelKind, v: bool): (l': Loading)
    ensures IsLoading(l', m) == v
    ensures forall k :: k != m ==> IsLoading(l', k) == IsLoading(l, k)
  {
    match m
    case LegalBert => l.(legalbert := v)
    case Bert => l.(bert := v)
    case Roberta => l.(roberta := v)
  }

  /** `isAnyLoading`: some value of the loading map is set. */
  function IsAnyLoading(l: Loading): (r: bool)
    ensures r <==> exists m :: IsLoading(l, m)
  {
    if l.legalbert then assert IsLoading(l, LegalBert); true
    else if l.bert then assert IsLoading(l, Bert); true
    else if l.roberta then assert IsLoading(l, Roberta); true
    else false
  }

  /** One entry of the results list. */
  datatype RunResult = RunResult(
    model: ModelKind,
    timestamp: string,
    success: bool,
    output: string,
    error: string,
    duration: nat)

  /** The model being executed and when it began, or nothing between runs. */
  datatype Execution = Execution(model: ModelKind, startTime: int)

  datatype Bench = Bench(loading: Loading, results: seq<RunResult>, current: Option<Execution>)

  const InitialBench := Bench(NoneLoading, [], None)

  /** How the simulated request ended. */
  datatype RunOutcome = Completed | Crashed(message: string)

  const SuccessDuration: nat := 4200
  const FailureDuration: nat := 2500

  /**
   * The first line of the report a successful run shows; the fixed figures
   * that follow it are not modelled.
   */
  function SuccessReport(m: ModelKind): string
  {
    "模型 " + DisplayName(m) + " 执行成功！"
  }

  function FailureText(m: ModelKind, message: string): string
  {
    "执行 " + DisplayName(m) + " 模型时发生错误：\n" + message
  }

  /** The result a run records for its outcome. */
  function ResultOf(m: ModelKind, outcome: RunOutcome, timestamp: string): (r: RunResult)
    ensures r.model == m && r.timestamp == timestamp
    ensures r.success <==> outcome.Completed?
    ensures r.success ==> r.error == "" && r.duration == SuccessDuration
    ensures !r.success ==> r.output == "" && r.duration == FailureDuration
  {
    match outcome
    case Completed => RunResult(m, timestamp, true, SuccessReport(m), "", SuccessDuration)
    case Crashed(msg) => RunResult(m, timestamp, false, "", FailureText(m, msg), FailureDuration)
  }

  /** First half of `runModel`: the model's flag is set and the execution recorded. */
  function BeginRun(b: Bench, m: ModelKind, startTime: int): (b': Bench)
    ensures IsLoading(b'.loading, m) && IsAnyLoading(b'.loading)
    ensures forall k :: k != m ==> IsLoading(b'.loading, k) == IsLoading(b.loading, k)
    ensures b'.current == Some(Execution(m, startTime))
    ensures b'.results == b.results
  {
    b.(loading := SetLoading(b.loading, m, true), current := Some(Execution(m, startTime)))
  }

  /**
   * Second half of `runModel`: the result goes in front of the list, then
   * the model's own flag and the current execution are cleared.
   */
  function FinishRun(b: Bench, m: ModelKind, outcome: RunOutcome, timestamp: string): (b': Bench)
    ensures |b'.results| == |b.results| + 1
    ensures b'.results[0] == ResultOf(m, outcome, timestamp) && b'.results[1..] == b.results
    ensures !IsLoading(b'.loading, m)
    ensures forall k :: k != m ==> IsLoading(b'.loading, k) == IsLoading(b.loading, k)
    ensures b'.current == None
  {
    Bench(SetLoading(b.loading, m, false), [ResultOf(m, outcome, timestamp)] + b.results, None)
  }

  /** `clearResults`: the list is emptied; loading flags stay as they are. */
  function ClearResults(b: Bench): (b': Bench)
    ensures b'.results == [] && b'.loading == b.loading && b'.current == b.current
  {
    b.(results := [])
  }

  /** Every run button and the clear button are disabled while any model loads. */
  predicate ButtonsEnabled(b: Bench)
  {
    !IsAnyLoading(b.loading)
  }

  /** Once a run begins, no other run and no clear can be started until it ends. */
  lemma BeginRunLocksButtons(b: Bench, m: ModelKind, startTime: int)
    ensures !ButtonsEnabled(BeginRun(b, m, startTime))
  {
  }

  /** A run begun with the buttons enabled releases them again when it finishes. */
  lemma RunReleasesButtons(b: Bench, m: ModelKind, startTime: int, outcome: RunOutcome, timestamp: string)
    requires ButtonsEnabled(b)
    ensures ButtonsEnabled(FinishRun(BeginRun(b, m, startTime), m, outcome, timestamp))
  {
  }

  /** One completed run, as the buttons allow it: begun and finished in one go. */
  datatype Run = Run(model: ModelKind, startTime: int, outcome: RunOutcome, timestamp: string)

  function Perform(b: Bench, r: Run): (b': Bench)
    ensures b'.results == [ResultOf(r.model, r.outcome, r.timestamp)] + b.results
  {
    FinishRun(BeginRun(b, r.model, r.startTime), r.model, r.outcome, r.timestamp)
  }

  /** The runs applied oldest first. */
  function PerformAll(b: Bench, runs: seq<Run>): Bench
    decreases |runs|
  {
    if |runs| == 0 then b else PerformAll(Perform(b, runs[0]), runs[1..])
  }

  /** The results the runs record, in the order they ran. */
  function ResultsOf(runs: seq<Run>): (rs: seq<RunResult>)
    ensures |rs| == |runs|
  {
    if |runs| == 0 then []
    else [ResultOf(runs[0].model, runs[0].outcome, runs[0].timestamp)] + ResultsOf(runs[1..])
  }

  /**
   * The results list holds every run ever made since it was last cleared,
   * newest first, and nothing is ever dropped.
   */
  lemma {:induction false} ResultsNewestFirst(b: Bench, runs: seq<Run>)
    ensures PerformAll(b, runs).results == Reverse(ResultsOf(runs)) + b.results
    decreases |runs|
  {
    if |runs| > 0 {
      var r0 := ResultOf(runs[0].model, runs[0].outcome, runs[0].timestamp);
      var later := ResultsOf(runs[1..]);
      ResultsNewestFirst(Perform(b, runs[0]), runs[1..]);
      assert ResultsOf(runs) == [r0] + later;
      PrependStep(r0, later, b.results);
    }
  }

  /** Runs made one after another leave the buttons enabled and no execution pending. */
  lemma {:induction false} PerformAllReleasesButtons(b: Bench, runs: seq<Run>)
    requires ButtonsEnabled(b) && b.current == None
    ensures ButtonsEnabled(PerformAll(b, runs)) && PerformAll(b, runs).current == None
    decreases |runs|
  {
    if |runs| > 0 {
      var r := runs[0];
      RunReleasesButtons(b, r.model, r.startTime, r.outcome, r.timestamp);
      PerformAllReleasesButtons(Perform(b, r), runs[1..]);
    }
  }

  /**
   * From the panel's opening state, any runs leave the buttons enabled and
   * the list holding exactly those runs' results, newest first.
   */
  lemma FromOpenedPanel(runs: seq<Run>)
    ensures var b := PerformAll(InitialBench, runs);
      ButtonsEnabled(b) && b.current == None && b.results == Reverse(ResultsOf(runs))
  {
    PerformAllReleasesButtons(InitialBench, runs);
    ResultsNewestFirst(InitialBench, runs);
  }

  /** Unlike the service log, the results list has no cap: it only grows until cleared. */
  lemma ResultsUnbounded(b: Bench, runs: seq<Run>)
    ensures |PerformAll(b, runs).results| == |b.results| + |runs|
  {
    ResultsNewestFirst(b, runs);
  }

  /** After a clear, the list shows exactly the runs made since, newest first. */
  lemma ClearThenRuns(b: Bench, runs: seq<Run>)
    ensures PerformAll(ClearResults(b), runs).results == Reverse(ResultsOf(runs))
  {
    ResultsNewestFirst(ClearResults(b), runs);
  }
}

=== FILE: sequences.dfy ===
/**
 * Generic sequence facts shared by the newest-first lists of the console
 * log and the ProvBench results.
 */
module Sequences {
  /** The elements in the opposite order. */
  function Reverse<T>(xs: seq<T>): (r: seq<T>)
    ensures |r| == |xs|
  {
    if |xs| == 0 then [] else Reverse(xs[1..]) + [xs[0]]
  }

  lemma {:induction false} ReverseIndex<T>(xs: seq<T>, k: nat)
    requires k < |xs|
    ensures Reverse(xs)[k] == xs[|xs| - 1 - k]
    decreases |xs|
  {
    if k < |xs| - 1 {
      ReverseIndex(xs[1..], k);
    }
  }

  /** Reversing after appending puts the new element first. */
  lemma {:induction false} ReverseSnoc<T>(xs: seq<T>, x: T)
    ensures Reverse(xs + [x]) == [x] + Reverse(xs)
    decreases |xs|
  {
    if |xs| == 0 {
      assert xs + [x] == [x];
      assert Reverse([x]) == Reverse([x][1..]) + [x];
      assert [x][1..] == [];
    } else {
      assert (xs + [x])[0] == xs[0];
      assert (xs + [x])[1..] == xs[1..] + [x];
      ReverseSnoc(xs[1..], x);
    }
  }

  /** Taking a prefix commutes with putting one element in front. */
  lemma PrependTake<T>(x: T, a: seq<T>, b: seq<T>, n: nat)
    requires n <= |a| + 1
    requires |a| <= |b|
    requires a == b[..|a|]
    ensures ([x] + a)[..n] == ([x] + b)[..n]
  {
    forall k | 0 <= k < n
      ensures ([x] + a)[k] == ([x] + b)[k]
    {
      if k > 0 {
        assert ([x] + a)[k] == a[k - 1];
        assert ([x] + b)[k] == b[k - 1];
      }
    }
  }

  /** Putting one more element on top of a reversed batch. */
  lemma PrependStep<T>(x: T, later: seq<T>, acc: seq<T>)
    ensures Reverse([x] + later) + acc == Reverse(later) + ([x] + acc)
  {
    assert ([x] + later)[1..] == later;
  }
}

=== FILE: service_console.dfy ===
/**
 * The AutoContractTag service console: three supervised services
 * (web server, task worker, extraction script), the per-service start and
 * stop handlers, the status badges, probe reconciliation and the capture of
 * the extraction script's output, all as pure transitions on a `Console`.
 *
 * Nothing here guards a transition: starting a running service or stopping
 * a stopped one goes through exactly like any other call.
 */
module ServiceConsole {
  import opened Options
  import opened Text
  import opened LogBuffer

  datatype ServiceId = WebServer | Task | Extract

  /** Key of the service in the state object, also the `service` of its log lines. */
  function Name(id: ServiceId): string
  {
    match id
    case WebServer => "webserver"
    case Task => "task"
    case Extract => "extract"
  }

  type Pid = nat

  /**
   * One service's state. `scriptOutput` only ever holds something for the
   * extraction script; the other two records have no such field.
   */
  datatype ServiceRecord = ServiceRecord(
    running: bool,
    starting: bool,
    pid: Option<Pid>,
    error: Option<string>,
    scriptOutput: Option<string>)

  const Idle := ServiceRecord(false, false, None, None, None)

  /** The fixed registry: one record per service, no others. */
  datatype Registry = Registry(webserver: ServiceRecord, task: ServiceRecord, extract: ServiceRecord)

  function Get(reg: Registry, id: ServiceId): ServiceRecord
  {
    match id
    case WebServer => reg.webserver
    case Task => reg.task
    case Extract => reg.extract
  }

  /** The records of every service other than `id` are the same in both registries. */
  predicate OthersUnchanged(reg: Registry, reg': Registry, id: ServiceId)
  {
    match id
    case WebServer => reg'.task == reg.task && reg'.extract == reg.extract
    case Task => reg'.webserver == reg.webserver && reg'.extract == reg.extract
    case Extract => reg'.webserver == reg.webserver && reg'.task == reg.task
  }

  lemma OthersUnchangedGet(reg: Registry, reg': Registry, id: ServiceId)
    requires OthersUnchanged(reg, reg', id)
    ensures forall other :: other != id ==> Get(reg', other) == Get(reg, other)
  {
  }

  function Set(reg: Registry, id: ServiceId, r: ServiceRecord): (reg': Registry)
    ensures Get(reg', id) == r
    ensures OthersUnchanged(reg, reg', id)
  {
    match id
    case WebServer => reg.(webserver := r)
    case Task => reg.(task := r)
    case Extract => reg.(extract := r)
  }

  /** The state hook and the log view together. */
  datatype Console = Console(services: Registry, logs: seq<LogEntry>)

  const InitialConsole := Console(Registry(Idle, Idle, Idle), [])

  /** `addLog(service, level, message)` stamped with `now`. */
  function Log(c: Console, service: string, level: Level, message: string, now: string): (c': Console)
    ensures c'.services == c.services
    ensures c'.logs == AddLog(c.logs, LogEntry(now, service, level, message))
  {
    c.(logs := AddLog(c.logs, LogEntry(now, service, level, message)))
  }

  function Update(c: Console, id: ServiceId, r: ServiceRecord): Console
  {
    c.(services := Set(c.services, id, r))
  }

  // ---------------------------------------------------------------------
  // Status badges
  // ---------------------------------------------------------------------

  datatype StatusType = WarningStatus | SuccessStatus | DangerStatus | InfoStatus

  /** JavaScript truthiness of the `error` field: null and "" are both false. */
  predicate HasError(r: ServiceRecord)
  {
    r.error.Some? && r.error.value != ""
  }

  /** `getServiceStatusType`: starting, then running, then error, then idle. */
  function StatusTypeOf(r: ServiceRecord): (t: StatusType)
    ensures t == WarningStatus <==> r.starting
    ensures t == SuccessStatus <==> !r.starting && r.running
    ensures t == DangerStatus <==> !r.starting && !r.running && HasError(r)
    ensures t == InfoStatus <==> !r.starting && !r.running && !HasError(r)
  {
    if r.starting then WarningStatus
    else if r.running then SuccessStatus
    else if HasError(r) then DangerStatus
    else InfoStatus
  }

  const TextStarting: string := "启动中"
  const TextRunning: string := "运行中"
  const TextError: string := "错误"
  const TextStopped: string := "未运行"

  /** `getServiceStatusText`, with the same precedence as the status type. */
  function StatusTextOf(r: ServiceRecord): (text: string)
    ensures text == TextStarting <==> r.starting
    ensures text == TextRunning <==> !r.starting && r.running
    ensures text == TextError <==> !r.starting && !r.running && HasError(r)
    ensures text == TextStopped <==> !r.starting && !r.running && !HasError(r)
  {
    if r.starting then TextStarting
    else if r.running then TextRunning
    else if HasError(r) then TextError
    else TextStopped
  }

  /** The label each status type is shown with. */
  function Label(t: StatusType): string
  {
    match t
    case WarningStatus => TextStarting
    case SuccessStatus => TextRunning
    case DangerStatus => TextError
    case InfoStatus => TextStopped
  }

  /** Text and type always agree, and the text alone tells the type. */
  lemma StatusTextAgreesWithType(r: ServiceRecord)
    ensures StatusTextOf(r) == Label(StatusTypeOf(r))
    ensures forall t :: Label(t) == StatusTextOf(r) ==> t == StatusTypeOf(r)
  {
  }

  /** A starting record reports "starting" whatever its other fields say. */
  lemma StartingDominates(r: ServiceRecord)
    requires r.starting
    ensures StatusTypeOf(r) == WarningStatus && StatusTextOf(r) == TextStarting
  {
  }

  /** The start button is offered only when not running, and is disabled while starting. */
  predicate StartEnabled(r: ServiceRecord)
  {
    !r.running && !r.starting
  }

  /** The stop button replaces the start button while running. */
  predicate StopShown(r: ServiceRecord)
  {
    r.running
  }

  // ---------------------------------------------------------------------
  // Start
  // ---------------------------------------------------------------------

  /** What the launcher reports: a process id, or the failure's message. */
  datatype LaunchOutcome = Launched(pid: Pid) | LaunchFailed(message: string)

  function StartingMessage(id: ServiceId): string
  {
    match id
    case WebServer => "正在启动 Doccano Web 服务器..."
    case Task => "正在启动任务处理器..."
    case Extract => "正在启动合同提取脚本..."
  }

  /** Subject of the success and failure lines of each service. */
  function Subject(id: ServiceId): string
  {
    match id
    case WebServer => "Web 服务器"
    case Task => "任务处理器"
    case Extract => "提取脚本"
  }

  /**
   * The success line prints the pid the handler saw when it was invoked, not
   * the one it just obtained.
   */
  function StartedMessage(id: ServiceId, seenPid: Option<Pid>): string
  {
    Subject(id) + "启动成功 (PID: " + PidText(seenPid) + ")"
  }

  function StartFailedMessage(id: ServiceId, reason: string): string
  {
    Subject(id) + "启动失败: " + reason
  }

  /** First half of a start handler: mark the record as starting and log it. */
  function BeginStart(c: Console, id: ServiceId, now: string): (c': Console)
    ensures Get(c'.services, id).starting
    ensures Get(c'.services, id) == Get(c.services, id).(starting := true)
    ensures OthersUnchanged(c.services, c'.services, id)
    ensures c'.logs == AddLog(c.logs, LogEntry(now, Name(id), Info, StartingMessage(id)))
  {
    var r := Get(c.services, id);
    Log(Update(c, id, r.(starting := true)), Name(id), Info, StartingMessage(id), now)
  }

  /** The record a launch outcome leaves behind. */
  function Launch(r: ServiceRecord, outcome: LaunchOutcome): (r': ServiceRecord)
    ensures !r'.starting
    ensures r'.scriptOutput == r.scriptOutput
    ensures outcome.Launched? ==>
      r'.running && r'.pid == Some(outcome.pid) && r'.error == None
    ensures outcome.LaunchFailed? ==>
      r'.error == Some(outcome.message) && r'.running == r.running && r'.pid == r.pid
  {
    match outcome
    case Launched(p) => r.(running := true, pid := Some(p), error := None, starting := false)
    case LaunchFailed(m) => r.(error := Some(m), starting := false)
  }

  function OutcomeEntry(id: ServiceId, outcome: LaunchOutcome, seenPid: Option<Pid>, now: string): LogEntry
  {
    match outcome
    case Launched(_) => LogEntry(now, Name(id), Success, StartedMessage(id, seenPid))
    case LaunchFailed(m) => LogEntry(now, Name(id), Error, StartFailedMessage(id, m))
  }

  /**
   * Second half of a start handler: apply the launcher's answer and log it.
   * `seenPid` is the pid in the render whose handler was invoked; the
   * success line prints it, whatever the record holds by now.
   */
  function FinishStart(c: Console, id: ServiceId, outcome: LaunchOutcome, seenPid: Option<Pid>, now: string): (c': Console)
    ensures Get(c'.services, id) == Launch(Get(c.services, id), outcome)
    ensures OthersUnchanged(c.services, c'.services, id)
    ensures c'.logs == AddLog(c.logs, OutcomeEntry(id, outcome, seenPid, now))
  {
    var r := Get(c.services, id);
    var entry := OutcomeEntry(id, outcome, seenPid, now);
    Update(c, id, Launch(r, outcome)).(logs := AddLog(c.logs, entry))
  }

  /** `startWebServer` / `startTaskWorker` / `startExtractScript`, run to completion. */
  function Start(c: Console, id: ServiceId, outcome: LaunchOutcome, now: string): (c': Console)
    ensures !Get(c'.services, id).starting
    ensures outcome.Launched? ==>
      var r' := Get(c'.services, id);
      r'.running && r'.pid == Some(outcome.pid) && r'.error == None
    ensures outcome.LaunchFailed? ==>
      var r, r' := Get(c.services, id), Get(c'.services, id);
      r'.error == Some(outcome.message) && r'.running == r.running && r'.pid == r.pid
    ensures Get(c'.services, id).scriptOutput == Get(c.services, id).scriptOutput
    ensures OthersUnchanged(c.services, c'.services, id)
    ensures c'.logs == AddLog(
      AddLog(c.logs, LogEntry(now, Name(id), Info, StartingMessage(id))),
      OutcomeEntry(id, outcome, Get(c.services, id).pid, now))
  {
    FinishStart(BeginStart(c, id, now), id, outcome, Get(c.services, id).pid, now)
  }

  /** Once a start has begun, the start button is disabled until it finishes. */
  lemma BeginStartDisablesButton(c: Console, id: ServiceId, now: string)
    ensures !StartEnabled(Get(BeginStart(c, id, now).services, id))
    ensures StatusTypeOf(Get(BeginStart(c, id, now).services, id)) == WarningStatus
    ensures StatusTextOf(Get(BeginStart(c, id, now).services, id)) == TextStarting
  {
  }

  /**
   * After a whole start, a success shows the stop button in place of the
   * start button; a failure leaves the buttons as the record's `running`
   * had them, with the start button enabled again unless it was running.
   */
  lemma StartButtons(c: Console, id: ServiceId, outcome: LaunchOutcome, now: string)
    ensures var r, r' := Get(c.services, id), Get(Start(c, id, outcome, now).services, id);
      && (outcome.Launched? ==> StopShown(r') && !StartEnabled(r'))
      && (outcome.LaunchFailed? ==> (StopShown(r') <==> StopShown(r)) && (StartEnabled(r') <==> !r.running))
  {
  }

  /**
   * Nothing but the button stops a second start: beginning a start on a
   * record that is already starting or running still goes through and logs.
   */
  lemma NoInFlightGuard(c: Console, id: ServiceId, now: string)
    requires Get(c.services, id).starting || Get(c.services, id).running
    ensures Get(BeginStart(c, id, now).services, id).starting
    ensures BeginStart(c, id, now).logs[0] == LogEntry(now, Name(id), Info, StartingMessage(id))
    ensures |BeginStart(c, id, now).logs| == if |c.logs| < Capacity then |c.logs| + 1 else Retained
  {
  }

  // ---------------------------------------------------------------------
  // Stop
  // ---------------------------------------------------------------------

  function StoppedMessage(id: ServiceId): string
  {
    Subject(id) + "已停止"
  }

  /** The record a stop leaves behind: no process; the script output goes with it. */
  function Halt(id: ServiceId, r: ServiceRecord): (r': ServiceRecord)
    ensures !r'.running && r'.pid == None
    ensures r'.starting == r.starting && r'.error == r.error
    ensures r'.scriptOutput == if id == Extract then None else r.scriptOutput
  {
    if id == Extract then r.(running := false, pid := None, scriptOutput := None)
    else r.(running := false, pid := None)
  }

  /** `stopWebServer` / `stopTaskWorker` / `stopExtractScript`. */
  function Stop(c: Console, id: ServiceId, now: string): (c': Console)
    ensures Get(c'.services, id) == Halt(id, Get(c.services, id))
    ensures OthersUnchanged(c.services, c'.services, id)
    ensures c'.logs == AddLog(c.logs, LogEntry(now, Name(id), Info, StoppedMessage(id)))
  {
    Log(Update(c, id, Halt(id, Get(c.services, id))), Name(id), Info, StoppedMessage(id), now)
  }

  // ---------------------------------------------------------------------
  // Refresh from a process probe
  // ---------------------------------------------------------------------

  /** One probe answer: whether the process runs and its pid (or null). */
  datatype ProbeStatus = ProbeStatus(running: bool, pid: Option<Pid>)

  /** The probe either answers with an object keyed by service name, or fails. */
  datatype ProbeResult = Probed(status: map<string, ProbeStatus>) | ProbeFailed(message: string)

  /** Copies `running` and `pid` from the probe when the probe names this service. */
  function Reconcile(id: ServiceId, r: ServiceRecord, status: map<string, ProbeStatus>): (r': ServiceRecord)
    ensures Name(id) in status ==>
      r'.running == status[Name(id)].running && r'.pid == status[Name(id)].pid
    ensures Name(id) !in status ==> r' == r
    ensures r'.starting == r.starting && r'.error == r.error && r'.scriptOutput == r.scriptOutput
  {
    if Name(id) in status then r.(running := status[Name(id)].running, pid := status[Name(id)].pid)
    else r
  }

  /** Every record reconciled against the same probe answer. */
  function ReconcileAll(reg: Registry, status: map<string, ProbeStatus>): Registry
  {
    Registry(
      Reconcile(WebServer, reg.webserver, status),
      Reconcile(Task, reg.task, status),
      Reconcile(Extract, reg.extract, status))
  }

  /** `refreshAllStatus`. */
  function Refresh(c: Console, probe: ProbeResult, now: string): (c': Console)
    ensures probe.Probed? ==> c'.services == ReconcileAll(c.services, probe.status)
    ensures probe.ProbeFailed? ==> c'.services == c.services
    ensures |c.logs| < Capacity ==> |c'.logs| == |c.logs| + 1
    ensures |c'.logs| > 0 && c'.logs[0].service == "system"
    ensures |c'.logs| > 0 && c'.logs[0].level == if probe.Probed? then Info else Error
    ensures probe.Probed? ==> c'.logs == AddLog(c.logs, LogEntry(now, "system", Info, "状态已刷新"))
    ensures probe.ProbeFailed? ==>
      c'.logs == AddLog(c.logs, LogEntry(now, "system", Error, "刷新状态失败: " + probe.message))
  {
    match probe
    case Probed(status) =>
      Log(c.(services := ReconcileAll(c.services, status)), "system", Info, "状态已刷新", now)
    case ProbeFailed(m) =>
      Log(c, "system", Error, "刷新状态失败: " + m, now)
  }

  /** Probe entries under names that are not services change nothing. */
  lemma RefreshIgnoresUnknownNames(c: Console, status: map<string, ProbeStatus>, name: string, now: string)
    requires forall id :: Name(id) != name
    ensures Refresh(c, Probed(status), now) == Refresh(c, Probed(status - {name}), now)
  {
    var smaller := status - {name};
    assert Name(WebServer) in status <==> Name(WebServer) in smaller;
    assert Name(Task) in status <==> Name(Task) in smaller;
    assert Name(Extract) in status <==> Name(Extract) in smaller;
    assert ReconcileAll(c.services, status) == ReconcileAll(c.services, smaller);
  }

  // ---------------------------------------------------------------------
  // Extraction script output
  // ---------------------------------------------------------------------

  /** What the log fetch returns: the script's lines, or the failure's message. */
  datatype LinesResult = Fetched(lines: seq<string>) | FetchFailed(message: string)

  /** How many trailing lines make up the snippet. */
  const SnippetLines: nat := 3

  /**
   * The snippet kept in `scriptOutput`: the last few lines joined by " | ".
   * Whatever the lines contain, it ends with the newest one.
   */
  function Snippet(lines: seq<string>): (s: string)
    ensures |lines| == 0 ==> s == ""
    ensures |lines| > 0 ==>
      var l := lines[|lines| - 1];
      |l| <= |s| && s[|s| - |l|..] == l
  {
    var tail := Last(lines, SnippetLines);
    if |tail| == 0 then ""
    else
      JoinEndsWithLast(tail, Bar);
      Join(tail, Bar)
  }

  /** `getExtractLogs`. */
  function CaptureOutput(c: Console, fetch: LinesResult, now: string): (c': Console)
    ensures fetch.Fetched? && |fetch.lines| > 0 ==>
      && Get(c'.services, Extract) == Get(c.services, Extract).(scriptOutput := Some(Snippet(fetch.lines)))
      && c'.logs == AddLog(c.logs, LogEntry(now, "extract", Info, "脚本输出: " + fetch.lines[|fetch.lines| - 1]))
    ensures !(fetch.Fetched? && |fetch.lines| > 0) ==> c'.services == c.services
    ensures fetch.Fetched? && |fetch.lines| == 0 ==>
      c'.logs == AddLog(c.logs, LogEntry(now, "extract", Warning, "没有找到脚本输出日志"))
    ensures fetch.FetchFailed? ==> |c'.logs| > 0 && c'.logs[0].level == Error
    ensures fetch.FetchFailed? ==>
      c'.logs == AddLog(c.logs, LogEntry(now, "extract", Error, "获取提取脚本日志失败: " + fetch.message))
    ensures OthersUnchanged(c.services, c'.services, Extract)
  {
    match fetch
    case Fetched(lines) =>
      if |lines| > 0 then
        var r := Get(c.services, Extract);
        Log(Update(c, Extract, r.(scriptOutput := Some(Snippet(lines)))),
            "extract", Info, "脚本输出: " + lines[|lines| - 1], now)
      else
        Log(c, "extract", Warning, "没有找到脚本输出日志", now)
    case FetchFailed(m) =>
      Log(c, "extract", Error, "获取提取脚本日志失败: " + m, now)
  }

  /**
   * When no line contains a '|', the snippet holds the last (up to three)
   * lines and nothing else: read back at the separators it gives those lines.
   */
  lemma SnippetKeepsNewestLines(lines: seq<string>)
    requires |lines| > 0
    requires forall k :: 0 <= k < |lines| ==> '|' !in lines[k]
    ensures SplitBars(Snippet(lines)) == Last(lines, SnippetLines)
    ensures |SplitBars(Snippet(lines))| == if |lines| < SnippetLines then |lines| else SnippetLines
  {
    SplitJoin(Last(lines, SnippetLines));
  }
}

=== FILE: status_badge.dfy ===
/**
 * The coloured badge on each service card. The card's text follows the
 * starting > running > error > idle precedence, but its colour is chosen by
 * running > error > idle alone, so it disagrees with the text while a
 * service is starting.
 */
module StatusBadge {
  import opened ServiceConsole

  datatype Colour = Green | Red | Gray | Yellow

  /** The badge colour as the card renders it: `starting` plays no part. */
  function RenderedColour(r: ServiceRecord): (k: Colour)
    ensures k == Green <==> r.running
    ensures k == Red <==> !r.running && HasError(r)
    ensures k != Yellow
  {
    if r.running then Green else if HasError(r) then Red else Gray
  }

  /** Colour for each status type; yellow is the page's colour for 'warning'. */
  function ColourOf(t: StatusType): Colour
  {
    match t
    case WarningStatus => Yellow
    case SuccessStatus => Green
    case DangerStatus => Red
    case InfoStatus => Gray
  }

  /** The corrected badge: coloured by the same status type that picks its text. */
  function BadgeColour(r: ServiceRecord): (k: Colour)
    ensures k == Yellow <==> StatusTextOf(r) == TextStarting
    ensures k == Green <==> StatusTextOf(r) == TextRunning
    ensures k == Red <==> StatusTextOf(r) == TextError
    ensures k == Gray <==> StatusTextOf(r) == TextStopped
  {
    StatusTextAgreesWithType(r);
    ColourOf(StatusTypeOf(r))
  }

  /** The rendered colour and the corrected one differ exactly while starting. */
  lemma RenderedColourWrongOnlyWhileStarting(r: ServiceRecord)
    ensures RenderedColour(r) != BadgeColour(r) <==> r.starting
  {
  }

  /**
   * Retrying a start after a failed one: the card reads "starting" on a red
   * badge, because the failure's message is still set.
   */
  lemma RetryAfterFailureShowsRedStartingBadge(now: string)
    ensures var failed := Start(InitialConsole, WebServer, LaunchFailed("端口已被占用"), now);
      var r := Get(BeginStart(failed, WebServer, now).services, WebServer);
      StatusTextOf(r) == TextStarting && RenderedColour(r) == Red && BadgeColour(r) == Yellow
  {
  }
}

=== FILE: text.dfy ===
/**
 * Small string helpers the console needs: `Array.prototype.join`,
 * `Array.prototype.slice(-n)` and the decimal rendering of a process id
 * inside a template literal.
 */
module Text {
  import opened Options

  /** `xs.join(sep)`: the elements with `sep` between neighbours; `[]` joins to "". */
  function Join(xs: seq<string>, sep: string): string {
    if |xs| == 0 then ""
    else if |xs| == 1 then xs[0]
    else xs[0] + sep + Join(xs[1..], sep)
  }

  /** `xs.slice(-n)` for n > 0: the last n elements, or all of them when there are fewer. */
  function Last<T>(xs: seq<T>, n: nat): (r: seq<T>)
    ensures |r| == if |xs| < n then |xs| else n
    ensures forall k :: 0 <= k < |r| ==> r[k] == xs[|xs| - |r| + k]
  {
    if |xs| < n then xs else xs[|xs| - n..]
  }

  /** Separator the extraction console puts between script output lines. */
  const Bar: string := " | "

  /** Index of the first '|' in s, or |s| when there is none. */
  function FirstBar(s: string): (i: nat)
    ensures i <= |s|
    ensures forall k :: 0 <= k < i ==> s[k] != '|'
    ensures i < |s| ==> s[i] == '|'
  {
    if |s| == 0 then 0
    else if s[0] == '|' then 0
    else 1 + FirstBar(s[1..])
  }

  /**
   * Reads a joined snippet back into its lines: cuts at each " | ".
   * Only meaningful for snippets whose lines contain no '|'.
   */
  function SplitBars(s: string): (r: seq<string>)
    ensures |r| >= 1
    decreases |s|
  {
    var i := FirstBar(s);
    if i < |s| && 1 <= i && s[i - 1] == ' ' && i + 1 < |s| && s[i + 1] == ' '
    then [s[..i - 1]] + SplitBars(s[i + 2..])
    else [s]
  }

  lemma FirstBarAfterPlain(x: string, t: string)
    requires '|' !in x
    ensures FirstBar(x + Bar + t) == |x| + 1
  {
    var s := x + Bar + t;
    assert s[|x| + 1] == '|';
    assert forall k :: 0 <= k < |x| + 1 ==> s[k] != '|' by {
      forall k | 0 <= k < |x| + 1
        ensures s[k] != '|'
      {
        if k < |x| {
          assert s[k] == x[k];
          assert x[k] in x;
        } else {
          assert s[k] == ' ';
        }
      }
    }
  }

  /** Joining with " | " loses nothing when no line contains a '|'. */
  lemma {:induction false} SplitJoin(xs: seq<string>)
    requires |xs| >= 1
    requires forall k :: 0 <= k < |xs| ==> '|' !in xs[k]
    ensures SplitBars(Join(xs, Bar)) == xs
  {
    if |xs| == 1 {
      var s := xs[0];
      assert '|' !in s;
      forall k | 0 <= k < |s|
        ensures s[k] != '|'
      {
        assert s[k] in s;
      }
    } else {
      var x, t := xs[0], Join(xs[1..], Bar);
      var s := x + Bar + t;
      assert Join(xs, Bar) == s;
      FirstBarAfterPlain(x, t);
      var i := |x| + 1;
      assert s[i - 1] == ' ' && s[i + 1] == ' ';
      assert s[..i - 1] == x;
      assert s[i + 2..] == t;
      SplitJoin(xs[1..]);
    }
  }

  /** The last element of a non-empty join is its suffix. */
  lemma {:induction false} JoinEndsWithLast(xs: seq<string>, sep: string)
    requires |xs| >= 1
    ensures |xs[|xs| - 1]| <= |Join(xs, sep)|
    ensures Join(xs, sep)[|Join(xs, sep)| - |xs[|xs| - 1]|..] == xs[|xs| - 1]
  {
    if |xs| > 1 {
      JoinEndsWithLast(xs[1..], sep);
      var t := Join(xs[1..], sep);
      var s := xs[0] + sep + t;
      assert s[|s| - |t|..] == t;
      assert s[|s| - |xs[|xs| - 1]|..] == t[|t| - |xs[|xs| - 1]|..];
    }
  }

  function Digit(d: nat): char
    requires d < 10
  {
    "0123456789"[d]
  }

  /** Decimal rendering of a natural number, as a template literal prints it. */
  function DecimalString(n: nat): string
  {
    if n < 10 then [Digit(n)] else DecimalString(n / 10) + [Digit(n % 10)]
  }

  /** Value of a decimal digit character; other characters read as 0. */
  function DigitValue(c: char): nat
  {
    if '0' <= c <= '9' then (c as int - '0' as int) as nat else 0
  }

  /** Reads a string of decimal digits back into a number. */
  function ParseDecimal(s: string): nat
  {
    if |s| == 0 then 0 else 10 * ParseDecimal(s[..|s| - 1]) + DigitValue(s[|s| - 1])
  }

  lemma DigitValueOfDigit(d: nat)
    requires d < 10
    ensures DigitValue(Digit(d)) == d
  {
  }

  /** The rendering reads back as the number it renders. */
  lemma {:induction false} ParseDecimalString(n: nat)
    ensures ParseDecimal(DecimalString(n)) == n
  {
    var s := DecimalString(n);
    if n < 10 {
      DigitValueOfDigit(n);
    } else {
      var q, d := n / 10, n % 10;
      var prefix := DecimalString(q);
      assert s == prefix + [Digit(d)];
      assert s[..|s| - 1] == prefix;
      assert s[|s| - 1] == Digit(d);
      ParseDecimalString(q);
      DigitValueOfDigit(d);
      assert ParseDecimal(s) == 10 * q + d;
    }
  }

  /** `${pid}` inside a template literal: "null" when there is no pid. */
  function PidText(pid: Option<nat>): string
  {
    match pid
    case None => "null"
    case Some(p) => DecimalString(p)
  }

  /** The printed pid tells the pid: "null" for none, its decimal digits otherwise. */
  lemma PidTextReadsBack(pid: Option<nat>)
    ensures pid.None? <==> PidText(pid) == "null"
    ensures pid.Some? ==> ParseDecimal(PidText(pid)) == pid.value
  {
    if pid.Some? {
      ParseDecimalString(pid.value);
      var s := PidText(pid);
      assert |s| > 0 && '0' <= s[|s| - 1] <= '9' by {
        DecimalStringLastDigit(pid.value);
      }
    }
  }

  lemma DecimalStringLastDigit(n: nat)
    ensures |DecimalString(n)| > 0
    ensures '0' <= DecimalString(n)[|DecimalString(n)| - 1] <= '9'
  {
  }
}

=== FILE: twin_carousel.dfy ===
/**
 * The business modelling page's two carousels: two independent indices,
 * each over two slides, with handlers that hard-code the slide count.
 */
module TwinCarousel {
  import opened Carousel

  /** `nextSlide1`/`nextSlide2`: 1 wraps to 0, anything else goes up by one. */
  function NextOfTwo(i: int): (r: int)
    ensures i in {0, 1} ==> r in {0, 1} && r == 1 - i
  {
    if i == 1 then 0 else i + 1
  }

  /** `prevSlide1`/`prevSlide2`: 0 wraps to 1, anything else goes down by one. */
  function PrevOfTwo(i: int): (r: int)
    ensures i in {0, 1} ==> r in {0, 1} && r == 1 - i
  {
    if i == 0 then 1 else i - 1
  }

  /**
   * The hard-coded handlers are the general wrap-around over a two-slide
   * list, for every index whatsoever.
   */
  lemma AgreesWithGeneral(i: int)
    ensures NextOfTwo(i) == Next(SlideCount, i)
    ensures PrevOfTwo(i) == Prev(SlideCount, i)
  {
  }

  /** On two slides, forward and back are the same toggle, and two presses undo each other. */
  lemma ToggleOnTwo(i: int)
    requires i in {0, 1}
    ensures NextOfTwo(i) == PrevOfTwo(i)
    ensures NextOfTwo(NextOfTwo(i)) == i && PrevOfTwo(PrevOfTwo(i)) == i
  {
  }

  /** The dot buttons come from the literal list `[0, 1]`. */
  const DotTargets: seq<int> := [0, 1]

  /** One carousel's response to a press on its own controls. */
  function StepOfTwo(i: int, m: Move): int
  {
    match m
    case Forward => NextOfTwo(i)
    case Back => PrevOfTwo(i)
    case Dot(p) => if p < |DotTargets| then DotTargets[p] else i
  }

  /** A dot press only ever selects slide 0 or slide 1. */
  lemma DotsSelectZeroOrOne(i: int, p: nat)
    requires p < |DotTargets|
    ensures StepOfTwo(i, Dot(p)) in {0, 1}
  {
  }

  datatype Lane = First | Second

  /** The page's two indices. */
  datatype Slides = Slides(slide1: int, slide2: int)

  const InitialSlides := Slides(0, 0)

  /** A press on one of the page's controls: which carousel, and which control. */
  datatype Press = Press(lane: Lane, move: Move)

  /** A press moves its own carousel's index and leaves the other carousel's alone. */
  function Apply(s: Slides, p: Press): (s': Slides)
    ensures p.lane == First ==> s'.slide2 == s.slide2 && s'.slide1 == StepOfTwo(s.slide1, p.move)
    ensures p.lane == Second ==> s'.slide1 == s.slide1 && s'.slide2 == StepOfTwo(s.slide2, p.move)
  {
    match p.lane
    case First => s.(slide1 := StepOfTwo(s.slide1, p.move))
    case Second => s.(slide2 := StepOfTwo(s.slide2, p.move))
  }

  function ApplyAll(s: Slides, presses: seq<Press>): Slides
    decreases |presses|
  {
    if |presses| == 0 then s else ApplyAll(Apply(s, presses[0]), presses[1..])
  }

  /** One carousel on its own, under a sequence of its own presses. */
  function StepsOfTwo(i: int, moves: seq<Move>): int
    decreases |moves|
  {
    if |moves| == 0 then i else StepsOfTwo(StepOfTwo(i, moves[0]), moves[1..])
  }

  /** The moves of the presses on one lane, in order. */
  function MovesOn(lane: Lane, presses: seq<Press>): (ms: seq<Move>)
    ensures |ms| <= |presses|
    decreases |presses|
  {
    if |presses| == 0 then []
    else if presses[0].lane == lane then [presses[0].move] + MovesOn(lane, presses[1..])
    else MovesOn(lane, presses[1..])
  }

  /**
   * The two carousels are independent: after any interleaving of presses,
   * each index is what its own presses alone would have made it.
   */
  lemma {:induction false} CarouselsIndependent(s: Slides, presses: seq<Press>)
    ensures ApplyAll(s, presses).slide1 == StepsOfTwo(s.slide1, MovesOn(First, presses))
    ensures ApplyAll(s, presses).slide2 == StepsOfTwo(s.slide2, MovesOn(Second, presses))
    decreases |presses|
  {
    if |presses| > 0 {
      var p := presses[0];
      CarouselsIndependent(Apply(s, p), presses[1..]);
      if p.lane == First {
        assert MovesOn(First, presses) == [p.move] + MovesOn(First, presses[1..]);
        assert ([p.move] + MovesOn(First, presses[1..]))[1..] == MovesOn(First, presses[1..]);
      } else {
        assert MovesOn(Second, presses) == [p.move] + MovesOn(Second, presses[1..]);
        assert ([p.move] + MovesOn(Second, presses[1..]))[1..] == MovesOn(Second, presses[1..]);
      }
    }
  }

  /** Each index stays 0 or 1 however the page is used, so each carousel shows exactly one slide. */
  lemma {:induction false} StaysOnTwoSlides(i: int, moves: seq<Move>)
    requires i in {0, 1}
    ensures StepsOfTwo(i, moves) in {0, 1}
    ensures CountTrue(Visible(SlideCount, StepsOfTwo(i, moves))) == 1
    decreases |moves|
  {
    if |moves| > 0 {
      StaysOnTwoSlides(StepOfTwo(i, moves[0]), moves[1..]);
    } else {
      VisibleCount(SlideCount, i);
    }
  }

  /** From the page's opening state, each carousel always shows exactly one of its two slides. */
  lemma PageShowsOneSlideEach(presses: seq<Press>)
    ensures var s := ApplyAll(InitialSlides, presses);
      && s.slide1 in {0, 1} && CountTrue(Visible(SlideCount, s.slide1)) == 1
      && s.slide2 in {0, 1} && CountTrue(Visible(SlideCount, s.slide2)) == 1
  {
    CarouselsIndependent(InitialSlides, presses);
    StaysOnTwoSlides(0, MovesOn(First, presses));
    StaysOnTwoSlides(0, MovesOn(Second, presses));
  }
}
